=== FILE: README.md ===
# tornado-alchemy-rest, modelled in Dafny

A model of the two pure cores of the Tornado/SQLAlchemy REST adapter:

- the **tagged temporal codec** (`DateTimeAwareJSONEncoder.default` and
  `DateTimeAwareJSONDecoder.dict_to_object`), which writes a `datetime` or
  `timedelta` as a `__type__`-tagged JSON object of integer fields and rebuilds
  it with Python's `datetime(**d)` / `timedelta(**d)`;
- the **list-query builder and CRUD protocol**: `get_arg`/`get_int`, the
  `field__suffix` filter grammar of `ListRESTAPIHandler.get_query`, sorting,
  pagination, the total count, the key filtering of a create, and
  `SingleRESTAPIHandler.get`/`put`/`delete`.

The SQL engine is replaced by an evaluator over an in-memory table. A list
query is a `Query` value: the conjoined predicates, an optional window
(LIMIT/OFFSET) and an optional order. It is evaluated in SQL order: filter,
then order, then offset and limit. The single-resource handlers work on a
table `map<int, Row>` keyed by primary key. Status codes are returned values.

Files (one module each): `wrappers.dfy` (Option, Result), `values.dfy` (the
value domain, naive datetime, normalised timedelta, the exceptions),
`encoders.dfy`, `args.dfy`, `filters.dfy`, `query.dfy`, `handlers.dfy`, and
`scenarios.dfy` (worked requests).

Two behaviours of the code are easy to misread, and the model keeps them as written:

- The encoder's docstring (`encoders.py:26-31`) says its output can be decoded
  by `DateTimeAwareJSONDecoder`. For a duration of a minute or more it cannot:
  the decoder adds `hours` and `minutes` on top of the whole sub-day `seconds`
  (see Findings).
- `get_query` (`__init__.py:125-137`) looks the field up among the table's
  columns only for a recognised, non-empty suffix. So `name__` is equality on a
  raw column, and a key with an unrecognised suffix such as `bogus__x` is
  ignored without any column check.

## Model

| member | source | states |
|---|---|---|
| `Encoders.EncodeDateTime` | tornado_alchemy_rest/encoders.py:34-44 | the tagged datetime has exactly the tag `datetime` and the seven components, each copied unchanged |
| `Encoders.EncodeTimeDelta` | tornado_alchemy_rest/encoders.py:46-54 | `days`, `seconds`, `microseconds` are copied unchanged; for a normalised duration `hours` is in [0,23], `minutes` in [0,59], and together with `seconds % 60` they decompose `seconds` |
| `Encoders.Default` | tornado_alchemy_rest/encoders.py:33-57 | the hook succeeds exactly for datetime and timedelta, giving a tagged object; anything else raises TypeError |
| `Encoders.IntField` | tornado_alchemy_rest/encoders.py:75 | one C-`int` argument of `datetime(...)`: an absent one is 0 or, when required, TypeError; a non-integer is TypeError; an integer outside [−2^31, 2^31−1] is OverflowError |
| `Encoders.MakeDateTime` | tornado_alchemy_rest/encoders.py:74-75 | more than nine keywords (the seven components, `tzinfo` and `fold`) raise TypeError before any is converted; otherwise `datetime(**d)` succeeds iff the keywords are known, year/month/day are present, every value is an integer within C `int`, and the named datetime is valid; it then agrees with every given field and has 0 in every omitted one. Well-formed keywords out of calendar range raise ValueError, out of C `int` range OverflowError; malformed keywords raise TypeError (or OverflowError when an earlier argument overflows) |
| `Encoders.MakeTimeDelta` | tornado_alchemy_rest/encoders.py:76-77 | `timedelta(**d)` succeeds only for known integer keywords; the result is normalised and denotes the sum of all keywords in their units; it fails exactly when that sum is outside the timedelta range |
| `Encoders.DictToObject` | tornado_alchemy_rest/encoders.py:69-81 | a mapping without `__type__`, or with a tag other than `datetime`/`timedelta`, comes back equal to the input (the tag restored); a `datetime` tag gives exactly the result or the error of `datetime(**rest)`, a `timedelta` tag that of `timedelta(**rest)`, where `rest` is the mapping without the tag |
| `Encoders.DateTimeRoundTrip` | tornado_alchemy_rest/encoders.py:34-75 | decoding the encoding of any valid naive datetime gives it back |
| `Encoders.TimeDeltaTagTotal` | tornado_alchemy_rest/encoders.py:76-77 | a timedelta tag decodes to days·86400·10^6 + hours·3600·10^6 + minutes·60·10^6 + seconds·10^6 + microseconds, or to OverflowError exactly when that total is out of range |
| `Encoders.TimeDeltaRoundTrip` | tornado_alchemy_rest/encoders.py:46-77 | the round trip holds iff `seconds < 60`; otherwise the decoded duration is longer by `seconds` rounded down to whole minutes (= hours·3600 + minutes·60 s), or OverflowError when that passes `timedelta.max` |
| `Encoders.OneHourDecodesAsTwo` | tornado_alchemy_rest/encoders.py:50-52 | a one-hour duration decodes to two hours |
| `Encoders.EncodeTimeDeltaCorrected` | tornado_alchemy_rest/encoders.py:46-54 | same field set as the encoder, only `seconds` replaced by the part below a minute |
| `Encoders.TimeDeltaCorrectedRoundTrip` | tornado_alchemy_rest/encoders.py:46-77 | the corrected encoding round-trips every valid duration |
| `Values.FromMicroseconds` | tornado_alchemy_rest/encoders.py:77 | timedelta normalisation: succeeds exactly inside [timedelta.min, timedelta.max] and then yields a normalised duration of the same total |
| `Values.NormalFormUnique` | tornado_alchemy_rest/encoders.py:77 | a normalised duration is the normal form of its own total |
| `Args.GetArg` | tornado_alchemy_rest/__init__.py:26-32 | a truthy value is converted; a falsy one gives the real default, or MissingArgument when the default is the `'__NONE__'` sentinel |
| `Args.ParseInt` | tornado_alchemy_rest/__init__.py:35 | `int(s)` succeeds iff `s` is an optional sign followed by at least one decimal digit, with the digits' value and the sign's direction; anything else raises ValueError |
| `Args.GetInt` | tornado_alchemy_rest/__init__.py:34-35 | a truthy value gives exactly `int(value)`, so a non-literal raises ValueError; a falsy value gives the default, or MissingArgument when there is none |
| `Args.MalformedIntRejected` | tornado_alchemy_rest/__init__.py:26-35 | a non-empty argument that is not an integer literal raises ValueError, whatever the default |
| `Args.ParseShowInt` | tornado_alchemy_rest/__init__.py:35 | `int(str(n)) == n` for every integer |
| `Args.GetIntCases` | tornado_alchemy_rest/__init__.py:26-35 | a rendered integer is read back; None or "" gives the default, or MissingArgument without one |
| `Filters.FindSep` | tornado_alchemy_rest/__init__.py:125 | finds the first `__` at or after a position, or reports there is none |
| `Filters.Partition` | tornado_alchemy_rest/__init__.py:125 | `str.partition('__')`: the parts concatenate to the key, the head holds no separator, and the separator is empty iff the key has none |
| `Filters.PartitionOfKey` | tornado_alchemy_rest/__init__.py:125 | `field__suffix` splits back into that field and suffix whenever the field can hold no separator, so `a__b__c` gives `a` and `b__c` |
| `Filters.KeyToPred` | tornado_alchemy_rest/__init__.py:125-137 | an empty suffix gives Eq on the raw, unvalidated head; an unrecognised suffix gives nothing; a recognised suffix on an undeclared field is UnknownColumn; `any` on a non-ARRAY column is AttributeError; every other predicate names a declared column, `any` and array containment only an ARRAY one |
| `Filters.SuffixGrammar` | tornado_alchemy_rest/__init__.py:126-137 | the suffix table for a declared field: `` → Eq, `startswith` → StartsWith, `contains` → Contains on a scalar column and ArrayContains (`@>`) on an ARRAY column, `icontains` → IContains (TypeError for a non-string value), `any` → Any on an ARRAY column and AttributeError otherwise, `ne` → Ne, anything else → nothing |
| `Filters.BareKeyIsEquality` | tornado_alchemy_rest/__init__.py:126-127 | a key without `__` is equality on the raw column of that name, declared or not |
| `Filters.BuildFilters` | tornado_alchemy_rest/__init__.py:124-138 | the loop over the filter keys: succeeds iff every key does; the predicates are exactly those the keys contribute; a failure is the error of the first failing key, in the filter object's order |
| `Filters.GetQuery` | tornado_alchemy_rest/__init__.py:170 | the call `self.get_query(**filters)`: a `self` key raises TypeError; otherwise it succeeds iff every key does, with exactly the contributed predicates, and a failure is the error of the first failing key |
| `Filters.LikeText` | tornado_alchemy_rest/__init__.py:128-131 | the text a LIKE operand stands for: a string as it is, an integer by the decimal literal that `int()` reads back, a boolean as `true`/`false`, and no other kind |
| `Filters.IgnoredKey` | tornado_alchemy_rest/__init__.py:124-138 | adding a key with an unrecognised suffix leaves the predicates unchanged |
| `Query.Select` | tornado_alchemy_rest/__init__.py:123-138 | the WHERE clause: a row is in the result iff it is a table row satisfying every predicate, and no row is added |
| `Query.SelectMultiplicity` | tornado_alchemy_rest/__init__.py:123-138 | a matching row keeps its multiplicity and a non-matching row disappears |
| `Query.SelectConjunction` | tornado_alchemy_rest/__init__.py:124-138 | predicates are conjoined: filtering by two lists is filtering by one, then the other |
| `Query.ValueLeTransitive` | tornado_alchemy_rest/__init__.py:175-177 | the ORDER BY comparison on values is transitive (with `ValueLeTotal`, a total preorder) |
| `Query.SortedAll` | tornado_alchemy_rest/__init__.py:175-177 | a sequence sorted pair by pair has every row ordered before every later row |
| `Query.Sort` | tornado_alchemy_rest/__init__.py:175-177 | ORDER BY yields a permutation of the rows, sorted under the order |
| `Query.Slice` | tornado_alchemy_rest/__init__.py:174 | OFFSET/LIMIT keeps at most `limit` rows starting at position `offset` |
| `Query.Ordered` | tornado_alchemy_rest/__init__.py:170-177 | WHERE then ORDER BY: a permutation of the matching rows, sorted when an order is given, and the matching rows in table order when none is |
| `Query.Paginate` | tornado_alchemy_rest/__init__.py:173-174 | with no window, the rows unchanged; with a window, the rows at positions offset, offset+1, … of the input, min(limit, n − offset) of them, in order; a negative limit or offset, or one above the `bigint` maximum 2^63 − 1, is a database error |
| `Query.Eval` | tornado_alchemy_rest/__init__.py:170-179 | unpaged, exactly the ordered matching rows; paged, the ordered matching rows at positions offset, offset+1, …, min(limit, matches − offset) of them; all match every predicate and are sorted when ordered; a negative limit or offset, or one above the `bigint` maximum, is a database error |
| `Query.PageOfRow` | tornado_alchemy_rest/__init__.py:173-174 | with n rows per page, the row at position i is on page i/n + 1, at position i mod n |
| `Handlers.PageWindow` | tornado_alchemy_rest/__init__.py:174 | limit is `int(per_page)` and offset is limit·(`int(page)` − 1); a missing `_perPage` raises TypeError; otherwise it succeeds iff both are integer literals, and raises ValueError when one is not |
| `Handlers.PageArithmetic` | tornado_alchemy_rest/__init__.py:173-174 | page p of n rows has limit n and offset n·(p − 1); page 1 has offset 0 |
| `Handlers.SortClause` | tornado_alchemy_rest/__init__.py:150-156 | `DESC` means descending and any other present direction ascending; a missing direction fails |
| `Handlers.WindowOf` | tornado_alchemy_rest/__init__.py:173-174 | no window unless `_page` is truthy; then exactly `PageWindow(_page, _perPage)`, so `_page` without `_perPage` raises TypeError |
| `Handlers.OrderOf` | tornado_alchemy_rest/__init__.py:175-177 | no order unless `_sortField` is truthy; then it succeeds iff `_sortDir` is present |
| `Handlers.ListPage` | tornado_alchemy_rest/__init__.py:170-179 | once predicates, window and order are known: 200 with the count of all matching rows; unpaged, exactly the ordered matches; paged, the ordered matches at positions offset, offset+1, …, as many as the window keeps; sorted when ordered; a window with a negative or above-`bigint` limit or offset is a database error and the only failure |
| `Handlers.ListGet` | tornado_alchemy_rest/__init__.py:161-183 | succeeds iff the filter call, the page arithmetic and the sort clause succeed and the window's limit and offset are nonnegative and within `bigint`, with the errors in that order; status 200; the total count is the number of matching rows; unpaged, the items are exactly the ordered matches; paged, they are the ordered matches from the offset of the page window (the window `WindowOf` gives, which is exactly `PageWindow(_page, _perPage)`), as many as that window keeps; sorted when a sort field is given |
| `Handlers.CountIndependent` | tornado_alchemy_rest/__init__.py:170-177 | two successful list requests with the same filters report the same total |
| `Handlers.CreateArgs` | tornado_alchemy_rest/__init__.py:191 | keeps exactly the body keys that are declared columns, values unchanged |
| `Handlers.CreateArgsIdempotent` | tornado_alchemy_rest/__init__.py:191 | filtering the body twice equals filtering it once |
| `Handlers.Post` | tornado_alchemy_rest/__init__.py:189-199 | with a body: status 201 and one row appended holding the filtered body; without one: the AttributeError of `None.items()` |
| `Handlers.Get` | tornado_alchemy_rest/__init__.py:56-74 | the id must parse; 404 with no body iff the id is absent, else 200 with the row |
| `Handlers.Put` | tornado_alchemy_rest/__init__.py:80-95 | succeeds iff the id parses and is absent or comes with a body; absent id: 404, table unchanged; present without a body: TypeError (`values(**None)`); present: only that row changes, the body's keys overwrite, other cells stay, and the answer is 200 with the merged row |
| `Handlers.Delete` | tornado_alchemy_rest/__init__.py:97-106 | absent id: 404, table unchanged; present: exactly that id is removed and the answer is 204 |
| `Handlers.DeleteThenGet` | tornado_alchemy_rest/__init__.py:67-106 | after deleting a row, getting its id gives 404, and every other id answers as before |
| `Handlers.PutThenGet` | tornado_alchemy_rest/__init__.py:87-95 | after a put, the response and a later get both give the merged row |
| `Scenarios.ListContains` | tornado_alchemy_rest/__init__.py:161-183 | `{"name__contains": "a"}` over rows a, b, ab returns a and ab with a total of 2 |
| `Scenarios.CreateDropsUnknownKeys` | tornado_alchemy_rest/__init__.py:189-199 | creating `{"name": "x", "bogus": "y"}` on columns id, name inserts only `name` and answers 201 |
| `Scenarios.SelfFilterRejected` | tornado_alchemy_rest/__init__.py:170 | a filter object with a `self` key fails with TypeError |
| `Scenarios.MalformedIdRejected` | tornado_alchemy_rest/__init__.py:56-57 | the path id `abc` raises ValueError, whatever the table |
| `Scenarios.AnyNeedsArray` | tornado_alchemy_rest/__init__.py:134-135 | `tags__any` is `v = ANY(tags)` on an ARRAY column and an AttributeError on a scalar one |
| `Scenarios.NullArrayElementMatchesNothing` | tornado_alchemy_rest/__init__.py:130-135 | `tags__any: null` and array containment of a NULL element match no row, even one whose array holds NULL |
| `Scenarios.IntegerContains` | tornado_alchemy_rest/__init__.py:130-131 | `name__contains: 5` matches a row named `a5b` |
| `Scenarios.GetFromEmpty` | tornado_alchemy_rest/__init__.py:67-72 | getting id 999 from an empty table answers 404 |

## Left out

- Network I/O: `ProxyAPIHandler` and `AsyncHTTPClient` are not modelled.
- The SQL engine: `_execute_query`, `psql.execute` and PostgreSQL compilation are not modelled. The in-memory evaluator stands in for them.
- Tornado plumbing: coroutines, `gen.Return`, headers, `set_status` and `options` are not modelled. Statuses and the total count are returned values.
- Body and query-string parsing: `prepare`, `json.loads` and content-type sniffing are library code. The `_filters` object and the request body arrive already parsed, and a top-level tagged body or a non-object body is not modelled.
- Handlers.ListGet: the UTF-8 decodes of the list handler are not modelled. These are every remaining query argument (tornado_alchemy_rest/__init__.py:168), `_filters` (line 167) and `_sortField`/`_sortDir` (lines 151-152). A query string holding invalid UTF-8 such as `x=%FF` raises UnicodeDecodeError there, which the model's success condition does not include.
- `TimeDeltaJSONEncoder` is left out. It emits float `total_seconds()` and no handler uses it.
- Response serialisation of rows through the encoder is left out. `ListResponse` and `Response` carry the rows themselves.
- Python's `int()` is modelled as an optional sign plus ASCII digits. Surrounding whitespace, `_` digit separators and non-ASCII digits are not modelled.
- Python `bool` is a subclass of `int`, so `datetime(year=True, …)` is accepted by Python. The model accepts only integer values. Floats are not modelled either.
- The `tzinfo` and `fold` keywords of `datetime` are not modelled. The model rejects them like unknown keywords.
- `hasattr`/`getattr` on `table.c` are modelled as membership in a map from declared column names to their kind (scalar or ARRAY). Attributes of the column collection that are not columns are not modelled.
- Filters.KeyToPred: an ARRAY column is taken to be PostgreSQL's `ARRAY`. With SQLAlchemy's generic `ARRAY` type, `contains` raises NotImplementedError, and that case is not modelled.
- Filters.Holds: a LIKE or ILIKE on a column that is not text, and `@>` with an operand that is not an array, are database errors in PostgreSQL. The model's predicate is simply false for them.
- Filters.Holds: a datetime, timedelta or list LIKE operand has no modelled text rendering, and such a predicate holds for no row.
- Filters.Holds: a row that `Handlers.Post` inserts has no cells for the columns the body leaves out, where the database stores NULL or the column default. So `{"col": null}` matches such a row in SQL but not in the model.
- SQL details are not modelled: collation (strings order by code point), wildcards inside LIKE/ILIKE values, and case folding beyond ASCII. Comparisons across value kinds use a fixed kind order. Lists and NULLs tie with each other in ORDER BY.
- A raw column that does not exist is an execution error in PostgreSQL. In the model an absent column never matches, and it sorts as NULL.
- Query.Ordered: without ORDER BY, SQL leaves the row order open. The model returns the matching rows in table order.
- Query.Sort: ties are kept in table order. SQL leaves the order of tied rows open, so the contract states only sorted + permutation.
- Handlers.Put: SQLAlchemy rejects body keys that are not columns, and an empty body, when it compiles the UPDATE. Neither is modelled; the body is merged as given.
- Handlers.Put: a body that changes `id` moves the row in the database, and the follow-up get then answers 404. The model keeps the row under its old id.
- The id returned by insert-returning is discarded by the source. Handlers.Post appends to a row sequence without generating an id.
- The query evaluator works over a `seq<Row>` and the single-resource handlers over `map<int, Row>`. They are two separate stand-ins for the same table.

## Findings

| source | as written | input that shows it | evidently intended | confidence | as-written member | corrected member |
|---|---|---|---|---|---|---|
| tornado_alchemy_rest/encoders.py:50-52 | the encoder emits the whole sub-day `seconds` alongside `hours` and `minutes`, and `timedelta(**d)` adds all three | `timedelta(hours=1)`: encoded as hours 1, minutes 0, seconds 3600; decoded as 2 hours | decoding the encoding gives back the duration, as the encoder's docstring (encoders.py:26-31) says | high; not executed | `Encoders.TimeDeltaRoundTrip`, `Encoders.OneHourDecodesAsTwo` | `Encoders.EncodeTimeDeltaCorrected`, `Encoders.TimeDeltaCorrectedRoundTrip` |

The model's `Encoders.Default` keeps the encoder as written. The corrected
encoding is a separate member.

=== FILE: args.dfy ===
/** Argument access of `BaseAPIHandler`: `get_arg` / `get_int`, and the subset
    of Python's `int(str)` the handlers rely on to read ids and page numbers. */
module Args {
  import opened Wrappers
  import opened Values

  /** Python truthiness of an optional string argument: None and "" are false. */
  predicate Truthy(v: Option<string>)
  {
    v.Some? && |v.value| > 0
  }

  predicate IsDigit(c: char)
  {
    '0' <= c <= '9'
  }

  predicate AllDigits(s: string)
  {
    forall i :: 0 <= i < |s| ==> IsDigit(s[i])
  }

  /** The decimal value of a digit string, most significant digit first. */
  function DigitsValue(s: string): nat
    requires AllDigits(s)
    decreases |s|
  {
    if |s| == 0 then 0
    else DigitsValue(s[..|s| - 1]) * 10 + (s[|s| - 1] as int - '0' as int)
  }

  predicate IsSign(c: char)
  {
    c == '-' || c == '+'
  }

  /** The part of `s` after a leading sign, if any. */
  function Unsigned(s: string): string
  {
    if |s| > 0 && IsSign(s[0]) then s[1..] else s
  }

  /** A decimal integer literal: an optional sign, then at least one digit. */
  predicate IntLiteral(s: string)
  {
    |Unsigned(s)| > 0 && AllDigits(Unsigned(s))
  }

  /** Python's `int(s)`: an optional sign followed by at least one decimal digit;
      anything else raises ValueError. */
  function ParseInt(s: string): (r: Result<int, Error>)
    ensures r.Success? <==> IntLiteral(s)
    ensures r.Failure? ==> r.error.ValueError?
    ensures r.Success? ==> (r.value < 0 ==> s[0] == '-') && (s[0] == '-' ==> r.value <= 0)
    ensures r.Success? ==> (if r.value < 0 then -r.value else r.value) == DigitsValue(Unsigned(s))
  {
    if |s| > 0 && (s[0] == '-' || s[0] == '+') then
      var digits := s[1..];
      if |digits| > 0 && AllDigits(digits) then
        var magnitude: int := DigitsValue(digits);
        Success(if s[0] == '-' then -magnitude else magnitude)
      else
        Failure(ValueError("invalid literal for int() with base 10"))
    else if |s| > 0 && AllDigits(s) then
      Success(DigitsValue(s))
    else
      Failure(ValueError("invalid literal for int() with base 10"))
  }

  function DigitChar(d: int): char
    requires 0 <= d < 10
  {
    ('0' as int + d) as char
  }

  /** The decimal rendering of a natural number, without leading zeros. */
  function ShowNat(n: nat): (s: string)
    ensures |s| > 0 && AllDigits(s)
    ensures s[0] != '0' || n == 0
  {
    if n < 10 then [DigitChar(n)] else ShowNat(n / 10) + [DigitChar(n % 10)]
  }

  /** `str(n)` for an integer. */
  function ShowInt(n: int): string
  {
    if n < 0 then "-" + ShowNat(-n) else ShowNat(n)
  }

  lemma {:induction false} DigitsOfShowNat(n: nat)
    ensures DigitsValue(ShowNat(n)) == n
  {
    if n >= 10 {
      var s := ShowNat(n);
      assert s[..|s| - 1] == ShowNat(n / 10);
      DigitsOfShowNat(n / 10);
    }
  }

  /** `int(str(n)) == n`. */
  lemma ParseShowInt(n: int)
    ensures ParseInt(ShowInt(n)) == Success(n)
  {
    var s := ShowInt(n);
    if n < 0 {
      assert s[0] == '-' && s[1..] == ShowNat(-n);
      assert Unsigned(s) == ShowNat(-n);
      DigitsOfShowNat(-n);
    } else {
      assert IsDigit(s[0]) && !IsSign(s[0]);
      assert Unsigned(s) == s;
      DigitsOfShowNat(n);
    }
  }

  /** The `default` of `get_arg`: the `'__NONE__'` sentinel or a real value. */
  datatype ArgDefault<T> = Required | Default(value: T)

  /** `BaseAPIHandler.get_arg`: a truthy value is converted; otherwise the
      default is returned, or MissingArgumentError raised when there is none. */
  function GetArg<T>(value: Option<string>, name: string, convert: string -> Result<T, Error>,
                     default: ArgDefault<T>): (r: Result<T, Error>)
    ensures Truthy(value) ==> r == convert(value.value)
    ensures !Truthy(value) && default.Default? ==> r == Success(default.value)
    ensures !Truthy(value) && default.Required? ==> r == Failure(MissingArgument(name))
  {
    if Truthy(value) then convert(value.value)
    else if default.Default? then Success(default.value)
    else Failure(MissingArgument(name))
  }

  /** `BaseAPIHandler.get_int`. */
  function GetInt(value: Option<string>, name: string, default: ArgDefault<int>): (r: Result<int, Error>)
    ensures r.Failure? && r.error.MissingArgument? ==> !Truthy(value) && default.Required?
    ensures !Truthy(value) ==> (r.Success? <==> default.Default?)
    ensures !Truthy(value) && default.Default? ==> r == Success(default.value)
    ensures Truthy(value) ==> (r.Success? <==> IntLiteral(value.value))
    ensures Truthy(value) ==> r == ParseInt(value.value)
    ensures Truthy(value) && r.Failure? ==> r.error.ValueError?
    ensures Truthy(value) && r.Success? ==> |value.value| > 0 && (r.value < 0 ==> value.value[0] == '-')
  {
    GetArg(value, name, ParseInt, default)
  }

  /** The three ways of `get_int`: a rendered integer is read back, an absent or
      empty argument takes the default, and with no default it is missing. */
  lemma GetIntCases(n: int, name: string, default: ArgDefault<int>)
    ensures GetInt(Some(ShowInt(n)), name, default) == Success(n)
    ensures default.Default? ==> GetInt(None, name, default) == Success(default.value)
    ensures default.Default? ==> GetInt(Some(""), name, default) == Success(default.value)
    ensures default.Required? ==> GetInt(None, name, default) == Failure(MissingArgument(name))
    ensures default.Required? ==> GetInt(Some(""), name, default) == Failure(MissingArgument(name))
  {
    ParseShowInt(n);
  }

  /** A non-empty argument that is not an integer literal (`abc`, `1.5`, `-`)
      raises ValueError whatever the default. */
  lemma MalformedIntRejected(s: string, name: string, default: ArgDefault<int>)
    requires |s| > 0 && !IntLiteral(s)
    ensures GetInt(Some(s), name, default).Failure? && GetInt(Some(s), name, default).error.ValueError?
  {
  }
}

=== FILE: encoders.dfy ===
/** The tagged temporal codec of `encoders.py`: `DateTimeAwareJSONEncoder.default`
    turns a datetime or timedelta into a `__type__`-tagged object of integer
    fields, and `DateTimeAwareJSONDecoder.dict_to_object` rebuilds the value from
    such an object (via Python's `datetime(**d)` / `timedelta(**d)`), or hands the
    object back unchanged. */
module Encoders {
  import opened Wrappers
  import opened Values

  const TypeKey: string := "__type__"
  const DateTimeTag: string := "datetime"
  const TimeDeltaTag: string := "timedelta"

  /** The keyword arguments Python's `datetime` constructor accepts (tzinfo and fold excepted). */
  const DateTimeFields: set<string> :=
    {"year", "month", "day", "hour", "minute", "second", "microsecond"}

  /** The keyword arguments Python's `timedelta` constructor accepts. */
  const TimeDeltaFields: set<string> :=
    {"days", "seconds", "microseconds", "milliseconds", "minutes", "hours", "weeks"}

  /** What `dict_to_object` returns: the object itself, or the rebuilt value. */
  datatype Decoded = DObject(obj: Obj) | DDateTime(dt: DateTime) | DTimeDelta(td: TimeDelta)

  /** The tagged form of a datetime: every component copied unchanged. */
  function EncodeDateTime(d: DateTime): (m: Obj)
    ensures m.Keys == {TypeKey} + DateTimeFields
    ensures m[TypeKey] == VStr(DateTimeTag)
    ensures m["year"] == VInt(d.year) && m["month"] == VInt(d.month) && m["day"] == VInt(d.day)
    ensures m["hour"] == VInt(d.hour) && m["minute"] == VInt(d.minute)
    ensures m["second"] == VInt(d.second) && m["microsecond"] == VInt(d.microsecond)
  {
    map[TypeKey := VStr(DateTimeTag),
        "year" := VInt(d.year), "month" := VInt(d.month), "day" := VInt(d.day),
        "hour" := VInt(d.hour), "minute" := VInt(d.minute),
        "second" := VInt(d.second), "microsecond" := VInt(d.microsecond)]
  }

  /** The tagged form of a timedelta. `hours` and `minutes` are derived from the
      sub-day remainder `seconds`, which is also emitted whole. Python's `//` is
      floor division, which agrees with Dafny's `/` for the positive divisors here. */
  function EncodeTimeDelta(td: TimeDelta): (m: Obj)
    ensures m.Keys == {TypeKey, "days", "hours", "minutes", "seconds", "microseconds"}
    ensures m[TypeKey] == VStr(TimeDeltaTag)
    ensures m["days"] == VInt(td.days) && m["seconds"] == VInt(td.seconds)
    ensures m["microseconds"] == VInt(td.microseconds)
    ensures m["hours"].VInt? && m["minutes"].VInt?
    ensures td.Valid() ==>
              && 0 <= m["hours"].i <= 23
              && 0 <= m["minutes"].i <= 59
              && m["hours"].i * 3600 + m["minutes"].i * 60 + td.seconds % 60 == td.seconds
  {
    map[TypeKey := VStr(TimeDeltaTag),
        "days" := VInt(td.days),
        "hours" := VInt(td.seconds / 3600),
        "minutes" := VInt((td.seconds / 60) % 60),
        "seconds" := VInt(td.seconds),
        "microseconds" := VInt(td.microseconds)]
  }

  /** `DateTimeAwareJSONEncoder.default`: only called for values JSON cannot
      write natively; anything but a datetime or timedelta falls through to
      `JSONEncoder.default`, which raises TypeError. */
  function Default(v: Value): (r: Result<Obj, Error>)
    ensures r.Success? <==> v.VDateTime? || v.VTimeDelta?
    ensures r.Success? ==> TypeKey in r.value
    ensures r.Failure? ==> r.error.TypeError?
    ensures v.VDateTime? ==> r == Success(EncodeDateTime(v.dt))
    ensures v.VTimeDelta? ==> r == Success(EncodeTimeDelta(v.td))
  {
    match v
    case VDateTime(d) => Success(EncodeDateTime(d))
    case VTimeDelta(td) => Success(EncodeTimeDelta(td))
    case _ => Failure(TypeError("Object is not JSON serializable"))
  }

  /** An integer keyword argument, or its default when absent. */
  function IntArg(kw: Obj, name: string, default: int): int
    requires name in kw ==> kw[name].VInt?
  {
    if name in kw then kw[name].i else default
  }

  predicate AllInts(kw: Obj)
  {
    forall k :: k in kw ==> kw[k].VInt?
  }

  /** The range of a C `int`, which the `i` argument format of `datetime(...)`
      converts each component to. */
  const IntMin: int := -0x8000_0000
  const IntMax: int := 0x7FFF_FFFF

  /** Every integer keyword argument fits a C `int`. */
  predicate IntsInCRange(kw: Obj)
  {
    forall k :: k in kw && kw[k].VInt? ==> IntMin <= kw[k].i <= IntMax
  }

  /** Exactly the keywords `datetime` accepts, the three required ones
      present, and every argument an integer. */
  predicate DateTimeKeywords(kw: Obj)
  {
    kw.Keys <= DateTimeFields && {"year", "month", "day"} <= kw.Keys && AllInts(kw)
  }

  /** The datetime the keywords name, the time components defaulting to zero. */
  function KeywordDateTime(kw: Obj): DateTime
    requires AllInts(kw)
  {
    DateTime(IntArg(kw, "year", 0), IntArg(kw, "month", 0), IntArg(kw, "day", 0),
             IntArg(kw, "hour", 0), IntArg(kw, "minute", 0),
             IntArg(kw, "second", 0), IntArg(kw, "microsecond", 0))
  }

  /** One `i`-format argument of `datetime(...)`: an absent one is 0, or a
      TypeError when it is required; a non-integer raises TypeError and an
      integer outside the C `int` range OverflowError. */
  function IntField(kw: Obj, name: string, required: bool): (r: Result<int, Error>)
    ensures name !in kw ==> (r.Success? <==> !required)
    ensures name !in kw && r.Success? ==> r.value == 0
    ensures name in kw ==> (r.Success? <==> kw[name].VInt? && IntMin <= kw[name].i <= IntMax)
    ensures name in kw && r.Success? ==> r.value == kw[name].i
    ensures r.Failure? && (name !in kw || !kw[name].VInt?) ==> r.error.TypeError?
    ensures r.Failure? && name in kw && kw[name].VInt? ==> r.error.OverflowError?
  {
    if name !in kw then
      if required then Failure(TypeError("missing required argument")) else Success(0)
    else if !kw[name].VInt? then Failure(TypeError("an integer is required"))
    else if kw[name].i < IntMin then Failure(OverflowError("signed integer is less than minimum"))
    else if kw[name].i > IntMax then Failure(OverflowError("signed integer is greater than maximum"))
    else Success(kw[name].i)
  }

  /** The number of keyword slots of `datetime(...)`: the seven components,
      `tzinfo` and `fold`. */
  const DateTimeSlots: nat := 9

  /** Known keywords never outnumber the slots. */
  lemma KnownKeywordsFit(keys: set<string>)
    ensures keys <= DateTimeFields ==> |keys| <= DateTimeSlots
  {
    if keys <= DateTimeFields {
      assert DateTimeFields == keys + (DateTimeFields - keys);
      assert |DateTimeFields| <= 7;
    }
  }

  /** `datetime(**kw)`. More keywords than slots raise TypeError before any is
      looked at. Otherwise the arguments are converted in declaration order
      (year, month, day, then the optional time components), so the first of
      them that is missing, not an integer, or outside the C `int` range decides
      between TypeError and OverflowError; an unknown keyword is reported after
      that; a component outside its calendar range raises ValueError. */
  function MakeDateTime(kw: Obj): (r: Result<DateTime, Error>)
    ensures |kw.Keys| > DateTimeSlots ==> r.Failure? && r.error.TypeError?
    ensures r.Success? <==> DateTimeKeywords(kw) && IntsInCRange(kw) && ValidDateTime(KeywordDateTime(kw))
    ensures r.Success? ==> ValidDateTime(r.value)
    ensures r.Success? ==> forall k :: k in kw ==> kw[k] == EncodeDateTime(r.value)[k]
    ensures r.Success? ==> forall k :: k in DateTimeFields && k !in kw ==> EncodeDateTime(r.value)[k] == VInt(0)
    ensures DateTimeKeywords(kw) && IntsInCRange(kw) && !ValidDateTime(KeywordDateTime(kw)) ==>
              r.Failure? && r.error.ValueError?
    ensures DateTimeKeywords(kw) && !IntsInCRange(kw) ==> r.Failure? && r.error.OverflowError?
    ensures !DateTimeKeywords(kw) && IntsInCRange(kw) ==> r.Failure? && r.error.TypeError?
    ensures !DateTimeKeywords(kw) ==> r.Failure? && (r.error.TypeError? || r.error.OverflowError?)
  {
    if |kw.Keys| > DateTimeSlots then
      KnownKeywordsFit(kw.Keys);
      Failure(TypeError("function takes at most 9 keyword arguments"))
    else
    var year :- IntField(kw, "year", true);
    var month :- IntField(kw, "month", true);
    var day :- IntField(kw, "day", true);
    var hour :- IntField(kw, "hour", false);
    var minute :- IntField(kw, "minute", false);
    var second :- IntField(kw, "second", false);
    var microsecond :- IntField(kw, "microsecond", false);
    if !(kw.Keys <= DateTimeFields) then
      Failure(TypeError("invalid keyword argument"))
    else
      assert AllInts(kw) && IntsInCRange(kw);
      var d := DateTime(year, month, day, hour, minute, second, microsecond);
      assert d == KeywordDateTime(kw);
      if ValidDateTime(d) then Success(d) else Failure(ValueError("component out of range"))
  }

  /** The duration `timedelta(**kw)` denotes, in microseconds: every keyword is
      an additive component in its own unit, all defaulting to zero. */
  function KeywordMicros(kw: Obj): int
    requires AllInts(kw)
  {
    IntArg(kw, "weeks", 0) * 7 * MicrosPerDay
    + IntArg(kw, "days", 0) * MicrosPerDay
    + IntArg(kw, "hours", 0) * 3600 * MicrosPerSecond
    + IntArg(kw, "minutes", 0) * 60 * MicrosPerSecond
    + IntArg(kw, "seconds", 0) * MicrosPerSecond
    + IntArg(kw, "milliseconds", 0) * 1000
    + IntArg(kw, "microseconds", 0)
  }

  /** `timedelta(**kw)` with integer arguments: unknown keyword or non-integer
      argument raises TypeError; the sum is normalised, or OverflowError. */
  function MakeTimeDelta(kw: Obj): (r: Result<TimeDelta, Error>)
    ensures r.Success? ==> kw.Keys <= TimeDeltaFields && AllInts(kw)
    ensures r.Success? ==> r.value.Valid() && r.value.Total() == KeywordMicros(kw)
    ensures kw.Keys <= TimeDeltaFields && AllInts(kw) ==>
              (r.Success? <==> MinTotal <= KeywordMicros(kw) <= MaxTotal)
  {
    if !(kw.Keys <= TimeDeltaFields) then
      Failure(TypeError("unexpected keyword argument"))
    else if !AllInts(kw) then
      Failure(TypeError("unsupported type for timedelta component"))
    else
      FromMicroseconds(KeywordMicros(kw))
  }

  /** `DateTimeAwareJSONDecoder.dict_to_object`. The tag is popped, the rest
      handed to the constructor it names; an unknown tag is put back. */
  function DictToObject(d: Obj): (r: Result<Decoded, Error>)
    ensures TypeKey !in d ==> r == Success(DObject(d))
    ensures TypeKey in d && d[TypeKey] != VStr(DateTimeTag) && d[TypeKey] != VStr(TimeDeltaTag) ==>
              r == Success(DObject(d))
    ensures r.Success? && r.value.DDateTime? ==> ValidDateTime(r.value.dt)
    ensures r.Success? && r.value.DTimeDelta? ==> r.value.td.Valid()
    ensures TypeKey in d && d[TypeKey] == VStr(DateTimeTag) ==>
              match MakeDateTime(d - {TypeKey})
              case Success(dt) => r == Success(DDateTime(dt))
              case Failure(e) => r == Failure(e)
    ensures TypeKey in d && d[TypeKey] == VStr(TimeDeltaTag) ==>
              match MakeTimeDelta(d - {TypeKey})
              case Success(td) => r == Success(DTimeDelta(td))
              case Failure(e) => r == Failure(e)
  {
    if TypeKey !in d then
      Success(DObject(d))
    else
      var tag := d[TypeKey];
      var rest := d - {TypeKey};
      if tag == VStr(DateTimeTag) then
        var dt :- MakeDateTime(rest);
        Success(DDateTime(dt))
      else if tag == VStr(TimeDeltaTag) then
        var td :- MakeTimeDelta(rest);
        Success(DTimeDelta(td))
      else
        var restored := rest[TypeKey := tag];
        assert restored == d;
        Success(DObject(restored))
  }

  /** Encoding then decoding a valid datetime gives it back. */
  lemma DateTimeRoundTrip(d: DateTime)
    requires ValidDateTime(d)
    ensures DictToObject(EncodeDateTime(d)) == Success(DDateTime(d))
  {
    var m := EncodeDateTime(d);
    var rest := m - {TypeKey};
    assert rest.Keys == DateTimeFields;
    assert DateTimeKeywords(rest) && IntsInCRange(rest);
    assert KeywordDateTime(rest) == d;
    assert MakeDateTime(rest).Success?;
  }

  /** The tagged timedelta object built from five integer fields. */
  function TimeDeltaObject(days: int, hours: int, minutes: int, seconds: int, micros: int): Obj
  {
    map[TypeKey := VStr(TimeDeltaTag), "days" := VInt(days), "hours" := VInt(hours),
        "minutes" := VInt(minutes), "seconds" := VInt(seconds), "microseconds" := VInt(micros)]
  }

  /** Decoding a timedelta tag adds up all five fields, each in its own unit. */
  lemma TimeDeltaTagTotal(days: int, hours: int, minutes: int, seconds: int, micros: int)
    ensures var total := days * MicrosPerDay + hours * 3600 * MicrosPerSecond
                         + minutes * 60 * MicrosPerSecond + seconds * MicrosPerSecond + micros;
            var r := DictToObject(TimeDeltaObject(days, hours, minutes, seconds, micros));
            && (r.Success? <==> MinTotal <= total <= MaxTotal)
            && (r.Success? ==> r.value.DTimeDelta? && r.value.td.Total() == total)
            && (r.Failure? ==> r.error.OverflowError?)
  {
    var m := TimeDeltaObject(days, hours, minutes, seconds, micros);
    var rest := m - {TypeKey};
    assert rest.Keys == {"days", "hours", "minutes", "seconds", "microseconds"};
    assert AllInts(rest);
  }

  /** The hours and minutes the encoder emits account for `seconds` rounded down
      to whole minutes. */
  lemma EncodedExcess(td: TimeDelta)
    requires td.Valid()
    ensures var m := EncodeTimeDelta(td);
            m["hours"].i * 3600 + m["minutes"].i * 60 == td.seconds - td.seconds % 60
  {
  }

  /** The timedelta round trip holds exactly when the sub-day remainder is under
      a minute. Otherwise the decoder adds `hours` and `minutes` on top of the
      whole `seconds`, so the result is longer by `seconds` rounded down to whole
      minutes, or raises OverflowError when that exceeds `timedelta.max`. */
  lemma {:induction false} TimeDeltaRoundTrip(td: TimeDelta)
    requires td.Valid()
    ensures DictToObject(EncodeTimeDelta(td)) == Success(DTimeDelta(td)) <==> td.seconds < 60
    ensures td.seconds >= 60 ==>
              var excess := (td.seconds - td.seconds % 60) * MicrosPerSecond;
              var r := DictToObject(EncodeTimeDelta(td));
              && excess > 0
              && (r.Success? <==> td.Total() + excess <= MaxTotal)
              && (r.Success? ==> r.value.DTimeDelta? && r.value.td.Total() == td.Total() + excess)
              && (r.Failure? ==> r.error.OverflowError?)
  {
    var m := EncodeTimeDelta(td);
    var h, mi := td.seconds / 3600, (td.seconds / 60) % 60;
    assert m == TimeDeltaObject(td.days, h, mi, td.seconds, td.microseconds);
    TimeDeltaTagTotal(td.days, h, mi, td.seconds, td.microseconds);
    EncodedExcess(td);
    var excess := (td.seconds - td.seconds % 60) * MicrosPerSecond;
    assert h * 3600 * MicrosPerSecond + mi * 60 * MicrosPerSecond == excess;
    var r := DictToObject(m);
    if td.seconds < 60 {
      assert excess == 0;
      NormalFormUnique(td);
      assert r.Success? && r.value.td.Total() == td.Total();
      assert r.value.td == td by {
        NormalFormUnique(r.value.td);
      }
    } else {
      assert excess > 0;
      if r.Success? {
        assert r.value.td.Total() != td.Total();
      }
    }
  }

  /** One hour comes back as two: `seconds` is 3600 and `hours` is 1. */
  lemma OneHourDecodesAsTwo()
    ensures DictToObject(EncodeTimeDelta(TimeDelta(0, 3600, 0))) == Success(DTimeDelta(TimeDelta(0, 7200, 0)))
  {
    var td := TimeDelta(0, 3600, 0);
    TimeDeltaRoundTrip(td);
    NormalFormUnique(TimeDelta(0, 7200, 0));
  }

  /** The tagged form the encoder evidently intends: the same field set, with
      `seconds` holding only the part below a minute, so that the additive
      decoder sums the fields back to the original duration. */
  function EncodeTimeDeltaCorrected(td: TimeDelta): (m: Obj)
    ensures m.Keys == EncodeTimeDelta(td).Keys
    ensures forall k :: k in m && k != "seconds" ==> m[k] == EncodeTimeDelta(td)[k]
    ensures td.Valid() ==> m["seconds"].VInt? && 0 <= m["seconds"].i < 60
  {
    EncodeTimeDelta(td)["seconds" := VInt(td.seconds % 60)]
  }

  /** The corrected encoding round-trips every valid timedelta. */
  lemma {:induction false} TimeDeltaCorrectedRoundTrip(td: TimeDelta)
    requires td.Valid()
    ensures DictToObject(EncodeTimeDeltaCorrected(td)) == Success(DTimeDelta(td))
  {
    var h, mi, s := td.seconds / 3600, (td.seconds / 60) % 60, td.seconds % 60;
    assert EncodeTimeDeltaCorrected(td) == TimeDeltaObject(td.days, h, mi, s, td.microseconds);
    TimeDeltaTagTotal(td.days, h, mi, s, td.microseconds);
    EncodedExcess(td);
    assert h * 3600 * MicrosPerSecond + mi * 60 * MicrosPerSecond + s * MicrosPerSecond
           == td.seconds * MicrosPerSecond;
    NormalFormUnique(td);
    var r := DictToObject(EncodeTimeDeltaCorrected(td));
    assert r.value.td == td by {
      NormalFormUnique(r.value.td);
    }
  }
}

=== FILE: filters.dfy ===
/** The filter grammar of `ListRESTAPIHandler.get_query`: each filter key is
    split at its first `__` into a field and a suffix, and the suffix picks one
    of six column predicates; the predicates of all keys are conjoined. */
module Filters {
  import opened Wrappers
  import opened Values
  import opened Args

  /** What the filter grammar needs to know of a declared column's SQL type:
      a PostgreSQL `ARRAY` column has its own comparator (`any`, and `contains`
      as array containment); every other type is scalar. */
  datatype Kind = Scalar | Array

  /** The declared columns of the table (`self.table.c`) with their kinds. */
  type Columns = map<string, Kind>

  /** `s` has the separator `__` starting at index `i`. */
  predicate SepAt(s: string, i: int)
  {
    0 <= i && i + 1 < |s| && s[i] == '_' && s[i + 1] == '_'
  }

  /** The first index at or after `from` where the separator starts. */
  function FindSep(s: string, from: nat): (r: Option<nat>)
    requires from <= |s|
    ensures r.Some? ==> from <= r.value && SepAt(s, r.value)
    ensures r.Some? ==> forall i :: from <= i < r.value ==> !SepAt(s, i)
    ensures r.None? ==> forall i :: from <= i < |s| ==> !SepAt(s, i)
    decreases |s| - from
  {
    if from + 1 >= |s| then None
    else if s[from] == '_' && s[from + 1] == '_' then Some(from)
    else FindSep(s, from + 1)
  }

  /** The three parts `str.partition` returns. */
  datatype Parts = Parts(head: string, sep: string, tail: string)

  /** `k.partition('__')`: split at the first separator; without one, the whole
      key is the head and separator and tail are empty. */
  function Partition(k: string): (p: Parts)
    ensures p.head + p.sep + p.tail == k
    ensures p.sep == "__" || (p.sep == "" && p.tail == "")
    ensures p.sep == "" <==> forall i :: 0 <= i < |k| ==> !SepAt(k, i)
    ensures forall i :: 0 <= i < |p.head| ==> !SepAt(k, i)
  {
    match FindSep(k, 0)
    case None => Parts(k, "", "")
    case Some(i) =>
      assert k == k[..i] + "__" + k[i + 2..];
      Parts(k[..i], "__", k[i + 2..])
  }

  /** A column predicate. `Eq` names a raw column reference; the others name a
      column of the declared table. */
  datatype Pred =
    | Eq(column: string, v: Value)          // column(field) == v
    | StartsWith(column: string, v: Value)  // column LIKE v || '%'
    | Contains(column: string, v: Value)    // column LIKE '%' || v || '%'
    | ArrayContains(column: string, v: Value)  // column @> v, on an ARRAY column
    | IContains(column: string, pattern: string)  // column ILIKE '%' + v + '%'
    | Any(column: string, v: Value)         // v = ANY(column)
    | Ne(column: string, v: Value)          // column != v

  /** The suffixes that select a predicate. */
  const Suffixes: set<string> := {"startswith", "contains", "icontains", "any", "ne"}

  /** The predicate one filter key contributes, if any. An empty suffix gives
      equality on the unvalidated raw column; every other recognised suffix needs
      `field` to be a declared column (`getattr(self.table.c, field)`);
      `icontains` needs a string value (`'%' + v + '%'`); `contains` on an ARRAY
      column is array containment, and `any` exists only on an ARRAY column's
      comparator; an unrecognised suffix contributes nothing. */
  function KeyToPred(key: string, v: Value, columns: Columns): (r: Result<Option<Pred>, Error>)
    ensures var p := Partition(key);
            && (p.tail == "" ==> r == Success(Some(Eq(p.head, v))))
            && (p.tail != "" && p.tail !in Suffixes ==> r == Success(None))
            && (p.tail in Suffixes && p.head !in columns ==> r == Failure(UnknownColumn(p.head)))
            && (p.tail == "any" && p.head in columns && columns[p.head] == Scalar ==> r.Failure? && r.error.AttributeError?)
    ensures r.Success? && r.value.Some? ==>
              var p := Partition(key);
              && r.value.value.column == p.head
              && (!r.value.value.Eq? ==> p.head in columns)
              && (r.value.value.Any? || r.value.value.ArrayContains? ==> columns[p.head] == Array)
              && (r.value.value.Contains? ==> columns[p.head] == Scalar)
  {
    var p := Partition(key);
    var field, suffix := p.head, p.tail;
    if suffix == "" then Success(Some(Eq(field, v)))
    else if suffix !in Suffixes then Success(None)
    else if field !in columns then Failure(UnknownColumn(field))
    else if suffix == "startswith" then Success(Some(StartsWith(field, v)))
    else if suffix == "contains" then
      if columns[field] == Array then Success(Some(ArrayContains(field, v))) else Success(Some(Contains(field, v)))
    else if suffix == "icontains" then
      if v.VStr? then Success(Some(IContains(field, v.s)))
      else Failure(TypeError("can only concatenate str to str"))
    else if suffix == "any" then
      if columns[field] == Array then Success(Some(Any(field, v)))
      else Failure(AttributeError("Comparator object has no attribute 'any'"))
    else Success(Some(Ne(field, v)))
  }

  /** A field that cannot contain, or run into, the first separator. */
  predicate PlainField(field: string)
  {
    (forall i :: 0 <= i < |field| ==> !SepAt(field, i))
    && (|field| == 0 || field[|field| - 1] != '_')
  }

  /** A key written as `field__suffix` splits back into that field and suffix,
      whatever the suffix holds (so `a__b__c` gives field `a`, suffix `b__c`). */
  lemma {:induction false} PartitionOfKey(field: string, suffix: string)
    requires PlainField(field)
    ensures Partition(field + "__" + suffix) == Parts(field, "__", suffix)
  {
    var k := field + "__" + suffix;
    var p := Partition(k);
    assert SepAt(k, |field|);
    assert forall i :: 0 <= i < |field| ==> !SepAt(k, i) by {
      forall i | 0 <= i < |field|
        ensures !SepAt(k, i)
      {
        if i + 1 < |field| {
          assert !SepAt(field, i);
        }
      }
    }
    assert p.sep == "__";
    assert SepAt(k, |p.head|) by {
      assert k[|p.head|] == p.sep[0] && k[|p.head| + 1] == p.sep[1];
    }
    assert |p.head| == |field|;
    assert p.head == k[..|field|] == field;
  }

  /** The suffix table: which predicate `field__suffix` denotes. */
  lemma SuffixGrammar(field: string, suffix: string, v: Value, columns: Columns)
    requires PlainField(field) && field in columns
    ensures suffix == "" ==> KeyToPred(field + "__" + suffix, v, columns) == Success(Some(Eq(field, v)))
    ensures suffix == "startswith" ==> KeyToPred(field + "__" + suffix, v, columns) == Success(Some(StartsWith(field, v)))
    ensures suffix == "contains" && columns[field] == Scalar ==>
              KeyToPred(field + "__" + suffix, v, columns) == Success(Some(Contains(field, v)))
    ensures suffix == "contains" && columns[field] == Array ==>
              KeyToPred(field + "__" + suffix, v, columns) == Success(Some(ArrayContains(field, v)))
    ensures suffix == "icontains" && v.VStr? ==> KeyToPred(field + "__" + suffix, v, columns) == Success(Some(IContains(field, v.s)))
    ensures suffix == "icontains" && !v.VStr? ==>
              var r := KeyToPred(field + "__" + suffix, v, columns); r.Failure? && r.error.TypeError?
    ensures suffix == "any" && columns[field] == Array ==> KeyToPred(field + "__" + suffix, v, columns) == Success(Some(Any(field, v)))
    ensures suffix == "any" && columns[field] == Scalar ==>
              var r := KeyToPred(field + "__" + suffix, v, columns); r.Failure? && r.error.AttributeError?
    ensures suffix == "ne" ==> KeyToPred(field + "__" + suffix, v, columns) == Success(Some(Ne(field, v)))
    ensures suffix != "" && suffix !in Suffixes ==> KeyToPred(field + "__" + suffix, v, columns) == Success(None)
  {
    PartitionOfKey(field, suffix);
  }

  /** A key with no separator is equality on the raw column of that name,
      declared or not. */
  lemma BareKeyIsEquality(key: string, v: Value, columns: Columns)
    requires forall i :: 0 <= i < |key| ==> !SepAt(key, i)
    ensures KeyToPred(key, v, columns) == Success(Some(Eq(key, v)))
  {
  }

  /** `ListRESTAPIHandler.get_query`: the predicates of all filter keys, in the
      order the filter object lists them; the first failing key raises. */
  function BuildFilters(filters: seq<(string, Value)>, columns: Columns): (r: Result<seq<Pred>, Error>)
    ensures r.Success? <==> forall i :: 0 <= i < |filters| ==> KeyToPred(filters[i].0, filters[i].1, columns).Success?
    ensures r.Success? ==> forall p :: p in r.value <==> Contributes(filters, columns, p)
    ensures r.Failure? ==> exists i :: FirstFailingKey(filters, columns, i, r.error)
  {
    if |filters| == 0 then Success([])
    else
      var here := KeyToPred(filters[0].0, filters[0].1, columns);
      var rest := BuildFilters(filters[1..], columns);
      assert forall i :: 1 <= i < |filters| ==> filters[i] == filters[1..][i - 1];
      if here.Failure? then
        assert FirstFailingKey(filters, columns, 0, here.error);
        Failure(here.error)
      else if rest.Failure? then
        var j :| FirstFailingKey(filters[1..], columns, j, rest.error);
        assert FirstFailingKey(filters, columns, j + 1, rest.error) by {
          forall k | 0 <= k < j + 1
            ensures KeyToPred(filters[k].0, filters[k].1, columns).Success?
          {
            if k > 0 {
              assert filters[k] == filters[1..][k - 1];
            }
          }
        }
        Failure(rest.error)
      else
        var out := if here.value.Some? then [here.value.value] + rest.value else rest.value;
        assert forall p :: p in out <==> Contributes(filters, columns, p) by {
          forall p
            ensures p in out <==> Contributes(filters, columns, p)
          {
            if p in rest.value {
              var j :| 0 <= j < |filters[1..]| && KeyToPred(filters[1..][j].0, filters[1..][j].1, columns) == Success(Some(p));
              assert KeyToPred(filters[j + 1].0, filters[j + 1].1, columns) == Success(Some(p));
            }
            if Contributes(filters, columns, p) {
              var i :| 0 <= i < |filters| && KeyToPred(filters[i].0, filters[i].1, columns) == Success(Some(p));
              if i > 0 {
                assert KeyToPred(filters[1..][i - 1].0, filters[1..][i - 1].1, columns) == Success(Some(p));
              }
            }
          }
        }
        Success(out)
  }

  /** The call `self.get_query(**filters)`: the filter object becomes keyword
      arguments of a bound method, so a key named `self` collides with the
      receiver and raises TypeError before any predicate is built. */
  function GetQuery(filters: seq<(string, Value)>, columns: Columns): (r: Result<seq<Pred>, Error>)
    ensures (exists i :: 0 <= i < |filters| && filters[i].0 == "self") ==> r.Failure? && r.error.TypeError?
    ensures r.Success? <==>
              forall i :: 0 <= i < |filters| ==> filters[i].0 != "self" && KeyToPred(filters[i].0, filters[i].1, columns).Success?
    ensures r.Success? ==> forall p :: p in r.value <==> Contributes(filters, columns, p)
    ensures r.Failure? && (forall i :: 0 <= i < |filters| ==> filters[i].0 != "self") ==>
              exists i :: FirstFailingKey(filters, columns, i, r.error)
  {
    if exists i :: 0 <= i < |filters| && filters[i].0 == "self" then
      Failure(TypeError("get_query() got multiple values for argument 'self'"))
    else
      BuildFilters(filters, columns)
  }

  /** Key `i` is the first of the filter object whose predicate fails, with
      error `e`: the loop of `get_query` raises there. */
  predicate FirstFailingKey(filters: seq<(string, Value)>, columns: Columns, i: int, e: Error)
  {
    && 0 <= i < |filters|
    && KeyToPred(filters[i].0, filters[i].1, columns) == Failure(e)
    && forall j :: 0 <= j < i ==> KeyToPred(filters[j].0, filters[j].1, columns).Success?
  }

  /** Some key of the filter object contributes predicate `p`. */
  predicate Contributes(filters: seq<(string, Value)>, columns: Columns, p: Pred)
  {
    exists i :: 0 <= i < |filters| && KeyToPred(filters[i].0, filters[i].1, columns) == Success(Some(p))
  }

  /** ASCII lower-casing, the case folding `ILIKE` applies. */
  function Lower(s: string): (t: string)
    ensures |t| == |s|
  {
    seq(|s|, i requires 0 <= i < |s| => if 'A' <= s[i] <= 'Z' then (s[i] as int + 32) as char else s[i])
  }

  predicate IsPrefix(p: string, s: string)
  {
    |p| <= |s| && s[..|p|] == p
  }

  /** `p` occurs in `s` starting at index `i`. */
  predicate OccursAt(p: string, s: string, i: int)
  {
    0 <= i <= |s| - |p| && s[i..i + |p|] == p
  }

  predicate IsSubstring(p: string, s: string)
  {
    exists i :: 0 <= i <= |s| && OccursAt(p, s, i)
  }

  /** The text PostgreSQL makes of a LIKE operand `'%' || v || '%'`: a string
      as it is, an integer or boolean by its literal rendering; other kinds have
      no modelled rendering. */
  function LikeText(v: Value): (t: Option<string>)
    ensures v.VStr? ==> t == Some(v.s)
    ensures v.VInt? ==> t.Some? && ParseInt(t.value) == Success(v.i)
    ensures v.VBool? ==> t == Some(if v.b then "true" else "false")
    ensures t.Some? <==> v.VStr? || v.VInt? || v.VBool?
  {
    match v
    case VStr(s) => Some(s)
    case VInt(i) => ParseShowInt(i); Some(ShowInt(i))
    case VBool(b) => Some(if b then "true" else "false")
    case _ => None
  }

  /** Whether a row satisfies a predicate. SQLAlchemy renders `== None` as
      `IS NULL` and `!= None` as `IS NOT NULL`; a comparison with a NULL cell is
      not true, and a NULL array element equals nothing, so it neither makes
      `= ANY` true nor satisfies `@>`. An absent column never matches. */
  predicate Holds(p: Pred, row: Row)
  {
    p.column in row &&
    var cell := row[p.column];
    match p
    case Eq(_, v) => cell == v
    case StartsWith(_, v) => cell.VStr? && LikeText(v).Some? && IsPrefix(LikeText(v).value, cell.s)
    case Contains(_, v) => cell.VStr? && LikeText(v).Some? && IsSubstring(LikeText(v).value, cell.s)
    case ArrayContains(_, v) => cell.VList? && v.VList? && forall x :: x in v.items ==> x != VNone && x in cell.items
    case IContains(_, pattern) => cell.VStr? && IsSubstring(Lower(pattern), Lower(cell.s))
    case Any(_, v) => cell.VList? && v != VNone && v in cell.items
    case Ne(_, v) => cell != VNone && cell != v
  }

  /** The conjunction of all predicates. */
  predicate Satisfies(preds: seq<Pred>, row: Row)
  {
    forall p :: p in preds ==> Holds(p, row)
  }

  /** A key with an unrecognised suffix (`field__bogus`, `a__b__c`) leaves the
      predicates of the other keys exactly as they were. */
  lemma {:induction false} IgnoredKey(filters: seq<(string, Value)>, key: string, v: Value, columns: Columns)
    requires KeyToPred(key, v, columns) == Success(None)
    ensures BuildFilters(filters + [(key, v)], columns) == BuildFilters(filters, columns)
  {
    if |filters| > 0 {
      assert (filters + [(key, v)])[1..] == filters[1..] + [(key, v)];
      IgnoredKey(filters[1..], key, v, columns);
    }
  }
}

=== FILE: handlers.dfy ===
/** The request handlers of `__init__.py`, with the SQL engine replaced by the
    in-memory evaluator: the list endpoint (`ListRESTAPIHandler.get` and
    `post`) over a sequence of rows, and the single-resource endpoint
    (`SingleRESTAPIHandler.get`/`put`/`delete`) over a table keyed by id. */
module Handlers {
  import opened Wrappers
  import opened Values
  import opened Args
  import opened Filters
  import opened Query

  /** The first value of each reserved query argument (None when absent), and
      the already parsed `_filters` object (None when absent). */
  datatype ListArgs = ListArgs(page: Option<string>, perPage: Option<string>,
                               sortField: Option<string>, sortDir: Option<string>,
                               filters: Option<seq<(string, Value)>>)

  /** Status, `X-Total-Count` header and the rows of the body. */
  datatype ListResponse = ListResponse(status: int, totalCount: nat, items: seq<Row>)

  /** `limit(int(per_page)).offset(int(per_page) * (int(page) - 1))`; `int(None)`
      raises TypeError, and `per_page` is converted first. */
  function PageWindow(page: string, perPage: Option<string>): (r: Result<Window, Error>)
    ensures perPage.None? ==> r.Failure? && r.error.TypeError?
    ensures perPage.Some? ==> (r.Success? <==> ParseInt(perPage.value).Success? && ParseInt(page).Success?)
    ensures perPage.Some? && r.Failure? ==> r.error.ValueError?
    ensures r.Success? ==> ParseInt(page).Success? && r.value.offset == r.value.limit * (ParseInt(page).value - 1)
    ensures r.Success? ==> ParseInt(perPage.value) == Success(r.value.limit)
  {
    if perPage.None? then Failure(TypeError("int() argument must be a string or a number, not 'NoneType'"))
    else
      var n :- ParseInt(perPage.value);
      var p :- ParseInt(page);
      Success(Window(n, n * (p - 1)))
  }

  /** Page `p` of `n` rows has limit `n` and offset `n * (p - 1)`; page 1 starts at 0. */
  lemma PageArithmetic(p: int, n: int)
    ensures PageWindow(ShowInt(p), Some(ShowInt(n))) == Success(Window(n, n * (p - 1)))
    ensures p == 1 ==> PageWindow(ShowInt(p), Some(ShowInt(n))).value.offset == 0
  {
    ParseShowInt(p);
    ParseShowInt(n);
  }

  /** `get_sort_clause`: `DESC` sorts descending, any other direction ascending;
      a missing direction fails on `None.decode()`. */
  function SortClause(field: string, dir: Option<string>): (r: Result<Order, Error>)
    ensures r.Success? <==> dir.Some?
    ensures r.Success? ==> r.value.column == field
    ensures r.Success? ==> (r.value.dir == Desc <==> dir.value == "DESC")
  {
    if dir.None? then Failure(AttributeError("'NoneType' object has no attribute 'decode'"))
    else Success(Order(field, if dir.value == "DESC" then Desc else Asc))
  }

  /** The window applied when `_page` is truthy. */
  function WindowOf(a: ListArgs): (r: Result<Option<Window>, Error>)
    ensures !Truthy(a.page) ==> r == Success(None)
    ensures Truthy(a.page) && a.perPage.None? ==> r.Failure? && r.error.TypeError?
    ensures Truthy(a.page) ==> (r.Success? <==> PageWindow(a.page.value, a.perPage).Success?)
    ensures r.Success? && Truthy(a.page) ==> r.value.Some? && PageWindow(a.page.value, a.perPage) == Success(r.value.value)
  {
    if Truthy(a.page) then
      var w :- PageWindow(a.page.value, a.perPage);
      Success(Some(w))
    else Success(None)
  }

  /** The order applied when `_sortField` is truthy. */
  function OrderOf(a: ListArgs): (r: Result<Option<Order>, Error>)
    ensures !Truthy(a.sortField) ==> r == Success(None)
    ensures Truthy(a.sortField) ==> (r.Success? <==> a.sortDir.Some?)
    ensures r.Success? && Truthy(a.sortField) ==>
              r.value == Some(Order(a.sortField.value, if a.sortDir.value == "DESC" then Desc else Asc))
  {
    if Truthy(a.sortField) then
      var o :- SortClause(a.sortField.value, a.sortDir);
      Success(Some(o))
    else Success(None)
  }

  /** The list response once the filter predicates, the window and the order
      are known: the count of all matching rows, and the rows the query
      returns. PostgreSQL rejects a negative LIMIT or OFFSET, and one outside
      `bigint` range. */
  function ListPage(rows: seq<Row>, preds: seq<Pred>, window: Option<Window>, order: Option<Order>): (r: Result<ListResponse, Error>)
    ensures r.Success? <==> window.None? || Accepted(window.value)
    ensures r.Failure? ==> r.error.DatabaseError?
    ensures r.Success? ==> r.value.status == 200 && r.value.totalCount == |Select(preds, rows)|
    ensures r.Success? ==> |r.value.items| <= r.value.totalCount
    ensures r.Success? ==> forall row :: row in r.value.items ==> row in rows && Satisfies(preds, row)
    ensures r.Success? && window.None? ==>
              && r.value.items == Ordered(preds, order, rows)
              && multiset(r.value.items) == multiset(Select(preds, rows))
              && |r.value.items| == r.value.totalCount
    ensures r.Success? && window.Some? ==>
              var o := Ordered(preds, order, rows);
              && |r.value.items| == WindowLength(r.value.totalCount, window.value)
              && forall j :: 0 <= j < |r.value.items| ==> r.value.items[j] == o[window.value.offset + j]
    ensures r.Success? && order.Some? ==> SortedBy(r.value.items, order.value)
  {
    var total := |Select(preds, rows)|;
    match Eval(Query(preds, window, order), rows)
    case Failure(e) => Failure(e)
    case Success(items) => Success(ListResponse(200, total, items))
  }

  /** `ListRESTAPIHandler.get`. The count runs over the filtered query before
      pagination and ordering are added, so it is the number of matching rows
      whatever the page, page size, sort field or direction. The failures come
      in the order the handler meets them: the filter call, the page
      arithmetic, the sort clause, and last the database rejecting a negative
      or out-of-range LIMIT or OFFSET. A paged request uses the window
      `WindowOf` gives, which is exactly `PageWindow(_page, _perPage)`. */
  function ListGet(rows: seq<Row>, columns: Columns, a: ListArgs): (r: Result<ListResponse, Error>)
    ensures var f := GetQuery(a.filters.GetOr([]), columns);
            && (f.Failure? ==> r == Failure(f.error))
            && (f.Success? && WindowOf(a).Failure? ==> r == Failure(WindowOf(a).error))
            && (f.Success? && WindowOf(a).Success? && OrderOf(a).Failure? ==> r == Failure(OrderOf(a).error))
    ensures r.Success? <==>
              && GetQuery(a.filters.GetOr([]), columns).Success?
              && WindowOf(a).Success? && OrderOf(a).Success?
              && (WindowOf(a).value.None? || Accepted(WindowOf(a).value.value))
    ensures r.Failure? && GetQuery(a.filters.GetOr([]), columns).Success? && WindowOf(a).Success? && OrderOf(a).Success? ==>
              r.error.DatabaseError?
    ensures var f := GetQuery(a.filters.GetOr([]), columns);
            && (r.Success? ==> r.value.status == 200 && r.value.totalCount == |Select(f.value, rows)|)
            && (r.Success? ==> |r.value.items| <= r.value.totalCount)
            && (r.Success? && !Truthy(a.page) ==> |r.value.items| == r.value.totalCount)
            && (r.Success? ==> forall row :: row in r.value.items ==> row in rows && Satisfies(f.value, row))
    ensures r.Success? && !Truthy(a.page) ==>
              var f := GetQuery(a.filters.GetOr([]), columns).value;
              && r.value.items == Ordered(f, OrderOf(a).value, rows)
              && multiset(r.value.items) == multiset(Select(f, rows))
    ensures r.Success? && Truthy(a.page) ==>
              var f := GetQuery(a.filters.GetOr([]), columns).value;
              var w := WindowOf(a).value.value;
              var o := Ordered(f, OrderOf(a).value, rows);
              && |r.value.items| == WindowLength(r.value.totalCount, w)
              && forall j :: 0 <= j < |r.value.items| ==> r.value.items[j] == o[w.offset + j]
    ensures r.Success? && Truthy(a.sortField) ==>
              a.sortDir.Some? && SortedBy(r.value.items, Order(a.sortField.value, if a.sortDir.value == "DESC" then Desc else Asc))
    ensures GetQuery(a.filters.GetOr([]), columns).Success? && Truthy(a.page) && a.perPage.None? ==>
              r.Failure? && r.error.TypeError?
  {
    match GetQuery(a.filters.GetOr([]), columns)
    case Failure(e) => Failure(e)
    case Success(preds) =>
      match WindowOf(a)
      case Failure(e) => Failure(e)
      case Success(window) =>
        match OrderOf(a)
        case Failure(e) => Failure(e)
        case Success(order) => ListPage(rows, preds, window, order)
  }

  /** The count does not depend on pagination or sorting: two list requests
      with the same filters report the same total. */
  lemma CountIndependent(rows: seq<Row>, columns: Columns, a: ListArgs, b: ListArgs)
    ensures var ra, rb := ListGet(rows, columns, a), ListGet(rows, columns, b);
            a.filters == b.filters && ra.Success? && rb.Success? ==> ra.value.totalCount == rb.value.totalCount
  {
  }

  /** The body keys `post_object_dict` keeps: exactly the declared columns,
      values unchanged (`hasattr(self.table.c, k)`). */
  function CreateArgs(params: Obj, columns: Columns): (args: Obj)
    ensures args.Keys == params.Keys * columns.Keys
    ensures forall k :: k in args ==> args[k] == params[k]
  {
    map k | k in params && k in columns :: params[k]
  }

  /** Filtering the body twice is filtering it once. */
  lemma CreateArgsIdempotent(params: Obj, columns: Columns)
    ensures CreateArgs(CreateArgs(params, columns), columns) == CreateArgs(params, columns)
  {
    var once := CreateArgs(params, columns);
    assert CreateArgs(once, columns).Keys == once.Keys;
  }

  /** `ListRESTAPIHandler.post`: insert the filtered body and answer 201. A
      request without a JSON body (`json_args` is None) fails on `None.items()`. */
  function Post(rows: seq<Row>, columns: Columns, body: Option<Obj>): (r: Result<(int, seq<Row>), Error>)
    ensures r.Success? <==> body.Some?
    ensures r.Failure? ==> r.error.AttributeError?
    ensures r.Success? ==> r.value.0 == 201 && |r.value.1| == |rows| + 1 && r.value.1[..|rows|] == rows
    ensures r.Success? ==> var inserted := r.value.1[|rows|];
              && inserted.Keys == body.value.Keys * columns.Keys
              && forall k :: k in inserted ==> inserted[k] == body.value[k]
  {
    if body.None? then Failure(AttributeError("'NoneType' object has no attribute 'items'"))
    else Success((201, rows + [CreateArgs(body.value, columns)]))
  }

  /** A table keyed by primary key. */
  type Table = map<int, Row>

  /** Status and, for 200, the row written as the body. */
  datatype Response = Response(status: int, body: Option<Row>)

  /** `SingleRESTAPIHandler.get`: the id comes from the path (`get_int`, no
      default); an absent row answers 404 with no body. */
  function Get(t: Table, id: Option<string>): (r: Result<Response, Error>)
    ensures r.Success? <==> GetInt(id, "id", Required).Success?
    ensures r.Success? ==> var k := GetInt(id, "id", Required).value;
              && (k !in t ==> r.value == Response(404, None))
              && (k in t ==> r.value == Response(200, Some(t[k])))
  {
    var k :- GetInt(id, "id", Required);
    if k in t then Success(Response(200, Some(t[k]))) else Success(Response(404, None))
  }

  /** `SingleRESTAPIHandler.put`: 404 and no change for an absent row; otherwise
      the body's keys overwrite that row's cells, and the answer is a fresh
      `get`. Without a JSON body `values(**None)` raises TypeError. */
  function Put(t: Table, id: Option<string>, body: Option<Obj>): (r: Result<(Response, Table), Error>)
    ensures r.Success? <==>
              GetInt(id, "id", Required).Success? && (GetInt(id, "id", Required).value !in t || body.Some?)
    ensures GetInt(id, "id", Required).Failure? ==> r == Failure(GetInt(id, "id", Required).error)
    ensures GetInt(id, "id", Required).Success? && GetInt(id, "id", Required).value in t && body.None? ==>
              r.Failure? && r.error.TypeError?
    ensures r.Success? && GetInt(id, "id", Required).value !in t ==> r.value == (Response(404, None), t)
    ensures r.Success? && GetInt(id, "id", Required).value in t ==>
              var k, t' := GetInt(id, "id", Required).value, r.value.1;
              && body.Some?
              && t'.Keys == t.Keys
              && (forall j :: j in t && j != k ==> t'[j] == t[j])
              && t'[k].Keys == t[k].Keys + body.value.Keys
              && (forall c :: c in body.value ==> t'[k][c] == body.value[c])
              && (forall c :: c in t[k] && c !in body.value ==> t'[k][c] == t[k][c])
              && r.value.0 == Response(200, Some(t'[k]))
  {
    var k :- GetInt(id, "id", Required);
    if k !in t then Success((Response(404, None), t))
    else if body.None? then Failure(TypeError("argument after ** must be a mapping, not NoneType"))
    else
      var t' := t[k := t[k] + body.value];
      Success((Get(t', id).value, t'))
  }

  /** `SingleRESTAPIHandler.delete`: 404 and no change for an absent row;
      otherwise only that row is removed and the answer is 204. */
  function Delete(t: Table, id: Option<string>): (r: Result<(Response, Table), Error>)
    ensures r.Success? <==> GetInt(id, "id", Required).Success?
    ensures r.Success? && GetInt(id, "id", Required).value !in t ==> r.value == (Response(404, None), t)
    ensures r.Success? && GetInt(id, "id", Required).value in t ==>
              var k := GetInt(id, "id", Required).value;
              r.value.0 == Response(204, None) && r.value.1 == t - {k} && |r.value.1| == |t| - 1
  {
    var k :- GetInt(id, "id", Required);
    if k !in t then Success((Response(404, None), t))
    else Success((Response(204, None), t - {k}))
  }

  /** After a successful delete of a row, getting the same id answers 404,
      and every other row is still there. */
  lemma DeleteThenGet(t: Table, k: int)
    requires k in t
    ensures var r := Delete(t, Some(ShowInt(k)));
            && r == Success((Response(204, None), t - {k}))
            && Get(r.value.1, Some(ShowInt(k))) == Success(Response(404, None))
            && forall j :: j in t && j != k ==> Get(r.value.1, Some(ShowInt(j))) == Get(t, Some(ShowInt(j)))
  {
    GetIntCases(k, "id", Required);
    forall j | j in t && j != k
      ensures Get(t - {k}, Some(ShowInt(j))) == Get(t, Some(ShowInt(j)))
    {
      GetIntCases(j, "id", Required);
    }
  }

  /** After a put, getting the same id answers the merged row. */
  lemma PutThenGet(t: Table, k: int, body: Obj)
    requires k in t
    ensures var r := Put(t, Some(ShowInt(k)), Some(body));
            && r.Success?
            && r.value.0 == Response(200, Some(t[k] + body))
            && Get(r.value.1, Some(ShowInt(k))) == Success(Response(200, Some(t[k] + body)))
  {
    GetIntCases(k, "id", Required);
  }
}

=== FILE: query.dfy ===
/** The meaning of the query `ListRESTAPIHandler` builds, over an in-memory
    table standing for the SQL engine: filter (WHERE), then order (ORDER BY),
    then OFFSET/LIMIT, and the count taken over the filtered rows alone. */
module Query {
  import opened Wrappers
  import opened Values
  import opened Filters

  datatype Dir = Asc | Desc

  /** `ORDER BY column ASC|DESC`; the column is a raw reference. */
  datatype Order = Order(column: string, dir: Dir)

  /** `LIMIT limit OFFSET offset`. */
  datatype Window = Window(limit: int, offset: int)

  /** A select over the table: conjoined predicates, an optional window and an
      optional order. */
  datatype Query = Query(preds: seq<Pred>, window: Option<Window>, order: Option<Order>)

  /** The rows that satisfy every predicate, in table order. Each row keeps its
      multiplicity when it matches and disappears when it does not. */
  function Select(preds: seq<Pred>, rows: seq<Row>): (out: seq<Row>)
    ensures forall r :: r in out <==> r in rows && Satisfies(preds, r)
    ensures multiset(out) <= multiset(rows)
  {
    if |rows| == 0 then []
    else
      var rest := Select(preds, rows[1..]);
      assert rows == [rows[0]] + rows[1..];
      if Satisfies(preds, rows[0]) then [rows[0]] + rest else rest
  }

  /** A matching row is kept as often as the table holds it, and a row that
      does not match is dropped. */
  lemma {:induction false} SelectMultiplicity(preds: seq<Pred>, rows: seq<Row>, r: Row)
    ensures multiset(Select(preds, rows))[r] == if Satisfies(preds, r) then multiset(rows)[r] else 0
  {
    if |rows| > 0 {
      SelectMultiplicity(preds, rows[1..], r);
      assert rows == [rows[0]] + rows[1..];
    }
  }

  /** Conjoining two predicate lists is filtering by one and then the other:
      the rows of a filter set are the intersection of the per-key row sets. */
  lemma {:induction false} SelectConjunction(p1: seq<Pred>, p2: seq<Pred>, rows: seq<Row>)
    ensures Select(p1 + p2, rows) == Select(p2, Select(p1, rows))
  {
    if |rows| > 0 {
      SelectConjunction(p1, p2, rows[1..]);
      assert Satisfies(p1 + p2, rows[0]) <==> Satisfies(p1, rows[0]) && Satisfies(p2, rows[0]);
      if Satisfies(p1, rows[0]) {
        assert Select(p1, rows)[1..] == Select(p1, rows[1..]);
      }
    }
  }

  /** The sort key of a row: its cell, with an absent column read as NULL. */
  function Cell(row: Row, column: string): Value
  {
    if column in row then row[column] else VNone
  }

  /** Kinds of value in ascending sort position; NULL sorts last ascending and
      first descending, as in PostgreSQL. */
  function Rank(v: Value): nat
  {
    match v
    case VBool(_) => 0
    case VInt(_) => 1
    case VStr(_) => 2
    case VDateTime(_) => 3
    case VTimeDelta(_) => 4
    case VList(_) => 5
    case VNone => 6
  }

  /** Code-point lexicographic order on strings. */
  predicate StrLe(a: string, b: string)
    decreases |a|
  {
    |a| == 0 || (|b| > 0 && (a[0] < b[0] || (a[0] == b[0] && StrLe(a[1..], b[1..]))))
  }

  /** Chronological order of naive datetimes (lexicographic on components). */
  predicate DateTimeLe(a: DateTime, b: DateTime)
  {
    if a.year != b.year then a.year < b.year
    else if a.month != b.month then a.month < b.month
    else if a.day != b.day then a.day < b.day
    else if a.hour != b.hour then a.hour < b.hour
    else if a.minute != b.minute then a.minute < b.minute
    else if a.second != b.second then a.second < b.second
    else a.microsecond <= b.microsecond
  }

  /** Comparison of two values of the same kind; lists and NULLs all tie. */
  predicate SameKindLe(a: Value, b: Value)
  {
    match a
    case VBool(x) => b.VBool? && (!x || b.b)
    case VInt(x) => b.VInt? && x <= b.i
    case VStr(x) => b.VStr? && StrLe(x, b.s)
    case VDateTime(x) => b.VDateTime? && DateTimeLe(x, b.dt)
    case VTimeDelta(x) => b.VTimeDelta? && x.Total() <= b.td.Total()
    case VList(_) => b.VList?
    case VNone => b.VNone?
  }

  /** The ascending sort order on values: a total preorder. */
  predicate ValueLe(a: Value, b: Value)
  {
    Rank(a) < Rank(b) || (Rank(a) == Rank(b) && SameKindLe(a, b))
  }

  lemma {:induction false} StrLeTotal(a: string, b: string)
    ensures StrLe(a, b) || StrLe(b, a)
    decreases |a|
  {
    if |a| > 0 && |b| > 0 && a[0] == b[0] {
      StrLeTotal(a[1..], b[1..]);
    }
  }

  lemma ValueLeTotal(a: Value, b: Value)
    ensures ValueLe(a, b) || ValueLe(b, a)
  {
    if a.VStr? && b.VStr? {
      StrLeTotal(a.s, b.s);
    }
  }

  lemma {:induction false} StrLeTransitive(a: string, b: string, c: string)
    requires StrLe(a, b) && StrLe(b, c)
    ensures StrLe(a, c)
    decreases |a|
  {
    if |a| > 0 && a[0] == b[0] && b[0] == c[0] {
      StrLeTransitive(a[1..], b[1..], c[1..]);
    }
  }

  /** `ValueLe` is transitive, so together with `ValueLeTotal` it is a total
      preorder. */
  lemma ValueLeTransitive(a: Value, b: Value, c: Value)
    requires ValueLe(a, b) && ValueLe(b, c)
    ensures ValueLe(a, c)
  {
    if a.VStr? && b.VStr? && c.VStr? {
      StrLeTransitive(a.s, b.s, c.s);
    }
  }

  /** Row `x` may precede row `y` under the order. */
  predicate RowLe(o: Order, x: Row, y: Row)
  {
    match o.dir
    case Asc => ValueLe(Cell(x, o.column), Cell(y, o.column))
    case Desc => ValueLe(Cell(y, o.column), Cell(x, o.column))
  }

  predicate SortedBy(s: seq<Row>, o: Order)
  {
    forall i :: 0 < i < |s| ==> RowLe(o, s[i - 1], s[i])
  }

  lemma RowLeTransitive(o: Order, x: Row, y: Row, z: Row)
    requires RowLe(o, x, y) && RowLe(o, y, z)
    ensures RowLe(o, x, z)
  {
    if o.dir == Asc {
      ValueLeTransitive(Cell(x, o.column), Cell(y, o.column), Cell(z, o.column));
    } else {
      ValueLeTransitive(Cell(z, o.column), Cell(y, o.column), Cell(x, o.column));
    }
  }

  /** A sequence sorted pair by pair is sorted globally: every row may precede
      every later one. */
  lemma {:induction false} SortedAll(s: seq<Row>, o: Order)
    requires SortedBy(s, o)
    ensures forall i, j :: 0 <= i < j < |s| ==> RowLe(o, s[i], s[j])
  {
    forall i, j | 0 <= i < j < |s|
      ensures RowLe(o, s[i], s[j])
    {
      SortedFrom(s, o, i, j);
    }
  }

  lemma {:induction false} SortedFrom(s: seq<Row>, o: Order, i: int, j: int)
    requires SortedBy(s, o) && 0 <= i < j < |s|
    ensures RowLe(o, s[i], s[j])
    decreases j - i
  {
    if j > i + 1 {
      SortedFrom(s, o, i, j - 1);
      RowLeTransitive(o, s[i], s[j - 1], s[j]);
    }
  }

  function Insert(o: Order, x: Row, s: seq<Row>): (r: seq<Row>)
    requires SortedBy(s, o)
    ensures SortedBy(r, o)
    ensures multiset(r) == multiset(s) + multiset{x}
    ensures |r| == |s| + 1
    ensures r[0] == x || (|s| > 0 && r[0] == s[0])
  {
    if |s| == 0 || RowLe(o, x, s[0]) then [x] + s
    else
      var rest := Insert(o, x, s[1..]);
      InsertAfterHead(o, x, s, rest);
      [s[0]] + rest
  }

  /** The recursive step of `Insert`: `x` goes after the head of `s`, so the
      head followed by `x` inserted into the tail is sorted and holds `x` and
      the rows of `s`. */
  lemma InsertAfterHead(o: Order, x: Row, s: seq<Row>, rest: seq<Row>)
    requires |s| > 0 && SortedBy(s, o) && !RowLe(o, x, s[0])
    requires SortedBy(rest, o) && multiset(rest) == multiset(s[1..]) + multiset{x} && |rest| == |s|
    requires rest[0] == x || (|s| > 1 && rest[0] == s[1])
    ensures SortedBy([s[0]] + rest, o)
    ensures multiset([s[0]] + rest) == multiset(s) + multiset{x}
  {
    assert RowLe(o, s[0], x) by {
      ValueLeTotal(Cell(x, o.column), Cell(s[0], o.column));
    }
    assert s == [s[0]] + s[1..];
    var r := [s[0]] + rest;
    forall i | 0 < i < |r|
      ensures RowLe(o, r[i - 1], r[i])
    {
      if i > 1 {
        assert r[i - 1] == rest[i - 2] && r[i] == rest[i - 1];
      }
    }
  }

  /** ORDER BY: a permutation of the rows, sorted under the order. SQL leaves
      the relative order of ties open; this sort keeps table order for them. */
  function Sort(o: Order, s: seq<Row>): (r: seq<Row>)
    ensures SortedBy(r, o)
    ensures multiset(r) == multiset(s)
    ensures |r| == |s|
  {
    if |s| == 0 then []
    else
      assert s == [s[0]] + s[1..];
      Insert(o, s[0], Sort(o, s[1..]))
  }

  function Min(a: int, b: int): int
  {
    if a <= b then a else b
  }

  /** How many of `n` rows a window keeps: none from an offset at or past the
      end, otherwise up to `limit` of those after the offset. */
  function WindowLength(n: int, w: Window): int
  {
    if w.offset >= n then 0 else Min(w.limit, n - w.offset)
  }

  /** OFFSET then LIMIT: the rows from position `offset` on, at most `limit` of them. */
  function Slice(s: seq<Row>, w: Window): (r: seq<Row>)
    requires w.limit >= 0 && w.offset >= 0
    ensures |r| == WindowLength(|s|, w)
    ensures forall j :: 0 <= j < |r| ==> r[j] == s[w.offset + j]
    ensures multiset(r) <= multiset(s)
    ensures forall row :: row in r ==> row in s
  {
    var lo := Min(w.offset, |s|);
    var hi := Min(w.offset + w.limit, |s|);
    assert s == s[..lo] + s[lo..hi] + s[hi..];
    s[lo..hi]
  }

  /** WHERE then ORDER BY: the selected rows, sorted when an order is given. */
  function Ordered(preds: seq<Pred>, order: Option<Order>, rows: seq<Row>): (r: seq<Row>)
    ensures multiset(r) == multiset(Select(preds, rows))
    ensures |r| == |Select(preds, rows)|
    ensures order.Some? ==> SortedBy(r, order.value)
    ensures order.None? ==> r == Select(preds, rows)
    ensures forall row :: row in r ==> row in rows && Satisfies(preds, row)
  {
    var selected := Select(preds, rows);
    var r := if order.Some? then Sort(order.value, selected) else selected;
    assert forall row :: row in r ==> row in selected by {
      forall row | row in r
        ensures row in selected
      {
        assert multiset(r)[row] > 0;
      }
    }
    r
  }

  /** The largest PostgreSQL `bigint`, the type LIMIT and OFFSET are coerced to. */
  const BigIntMax: int := 0x7FFF_FFFF_FFFF_FFFF

  /** A window PostgreSQL runs: LIMIT and OFFSET are nonnegative and fit a
      `bigint`; otherwise the statement fails. */
  predicate Accepted(w: Window)
  {
    0 <= w.limit <= BigIntMax && 0 <= w.offset <= BigIntMax
  }

  /** OFFSET/LIMIT when a window is given. PostgreSQL rejects a negative LIMIT
      or OFFSET, and one outside `bigint` range. */
  function Paginate(s: seq<Row>, window: Option<Window>, order: Option<Order>): (r: Result<seq<Row>, Error>)
    ensures r.Success? <==> window.None? || Accepted(window.value)
    ensures r.Success? ==> multiset(r.value) <= multiset(s)
    ensures r.Success? ==> forall row :: row in r.value ==> row in s
    ensures r.Success? && window.None? ==> r.value == s
    ensures r.Success? && window.Some? ==> |r.value| == WindowLength(|s|, window.value)
    ensures r.Success? && window.Some? ==> forall j :: 0 <= j < |r.value| ==> r.value[j] == s[window.value.offset + j]
    ensures r.Success? && order.Some? && SortedBy(s, order.value) ==> SortedBy(r.value, order.value)
  {
    match window
    case None => Success(s)
    case Some(w) =>
      if !Accepted(w) then
        Failure(DatabaseError("LIMIT and OFFSET must be nonnegative bigint values"))
      else
        var out := Slice(s, w);
        assert order.Some? && SortedBy(s, order.value) ==> SortedBy(out, order.value) by {
          if order.Some? && SortedBy(s, order.value) {
            SliceKeepsOrder(s, w, order.value);
          }
        }
        Success(out)
  }

  /** The rows the query returns: WHERE, then ORDER BY, then OFFSET/LIMIT. */
  function Eval(q: Query, rows: seq<Row>): (r: Result<seq<Row>, Error>)
    ensures r.Success? <==> q.window.None? || Accepted(q.window.value)
    ensures r.Success? ==> multiset(r.value) <= multiset(Select(q.preds, rows))
    ensures r.Success? ==> |r.value| <= |Select(q.preds, rows)|
    ensures r.Success? ==> forall row :: row in r.value ==> row in rows && Satisfies(q.preds, row)
    ensures r.Success? && q.order.Some? ==> SortedBy(r.value, q.order.value)
    ensures r.Success? && q.window.None? ==> r.value == Ordered(q.preds, q.order, rows)
    ensures r.Success? && q.window.None? ==> multiset(r.value) == multiset(Select(q.preds, rows))
    ensures r.Success? && q.window.Some? ==> |r.value| == WindowLength(|Select(q.preds, rows)|, q.window.value)
    ensures r.Success? && q.window.Some? ==>
              forall j :: 0 <= j < |r.value| ==> r.value[j] == Ordered(q.preds, q.order, rows)[q.window.value.offset + j]
  {
    Paginate(Ordered(q.preds, q.order, rows), q.window, q.order)
  }

  lemma SliceKeepsOrder(s: seq<Row>, w: Window, o: Order)
    requires w.limit >= 0 && w.offset >= 0 && SortedBy(s, o)
    ensures SortedBy(Slice(s, w), o)
  {
    var r := Slice(s, w);
    forall i | 0 < i < |r|
      ensures RowLe(o, r[i - 1], r[i])
    {
      assert r[i - 1] == s[w.offset + i - 1] && r[i] == s[w.offset + i];
    }
  }

  /** With `n` rows per page, the row at position `i` of the ordered result is
      on page `i / n + 1` (offset `n * (i / n)`), at position `i % n`. */
  lemma PageOfRow(s: seq<Row>, n: int, i: int)
    requires n > 0 && 0 <= i < |s|
    ensures 0 <= n * (i / n) && i % n < |Slice(s, Window(n, n * (i / n)))|
    ensures Slice(s, Window(n, n * (i / n)))[i % n] == s[i]
  {
    assert n * (i / n) + i % n == i;
  }
}

=== FILE: scenarios.dfy ===
/** Worked requests against small tables, stated as lemmas over the model. */
module Scenarios {
  import opened Wrappers
  import opened Values
  import opened Args
  import opened Filters
  import opened Query
  import opened Handlers

  /** A table declaring a scalar `id` and `name`. */
  const IdName: Columns := map["id" := Scalar, "name" := Scalar]

  function NamedRow(id: int, name: string): Row
  {
    map["id" := VInt(id), "name" := VStr(name)]
  }

  /** `name__contains` on a declared column is one Contains predicate. */
  lemma ContainsFilter(columns: Columns)
    requires "name" in columns && columns["name"] == Scalar
    ensures BuildFilters([("name__contains", VStr("a"))], columns) == Success([Contains("name", VStr("a"))])
  {
    var filters := [("name__contains", VStr("a"))];
    assert PlainField("name");
    SuffixGrammar("name", "contains", VStr("a"), columns);
    assert "name__contains" == "name" + "__" + "contains";
    assert KeyToPred(filters[0].0, filters[0].1, columns) == Success(Some(Contains("name", VStr("a"))));
    assert filters[1..] == [];
    assert BuildFilters(filters[1..], columns) == Success([]);
    assert BuildFilters(filters, columns) == Success([Contains("name", VStr("a"))] + []);
    assert [Contains("name", VStr("a"))] + [] == [Contains("name", VStr("a"))];
  }

  /** Which of the rows a, b, ab contain "a". */
  lemma ContainsRows()
    ensures Satisfies([Contains("name", VStr("a"))], NamedRow(1, "a"))
    ensures !Satisfies([Contains("name", VStr("a"))], NamedRow(2, "b"))
    ensures Satisfies([Contains("name", VStr("a"))], NamedRow(3, "ab"))
  {
    var pred := Contains("name", VStr("a"));
    assert OccursAt("a", "a", 0) && OccursAt("a", "ab", 0);
    assert Holds(pred, NamedRow(1, "a")) && Holds(pred, NamedRow(3, "ab"));
    forall i | 0 <= i <= 1
      ensures !OccursAt("a", "b", i)
    {
      if i == 0 {
        assert "b"[0..1][0] == 'b';
      }
    }
    assert !Holds(pred, NamedRow(2, "b"));
  }

  /** Of the rows a, b, ab, the ones containing "a" are a and ab. */
  lemma ContainsSelect()
    ensures Select([Contains("name", VStr("a"))], [NamedRow(1, "a"), NamedRow(2, "b"), NamedRow(3, "ab")])
              == [NamedRow(1, "a"), NamedRow(3, "ab")]
  {
    var rows := [NamedRow(1, "a"), NamedRow(2, "b"), NamedRow(3, "ab")];
    var preds := [Contains("name", VStr("a"))];
    ContainsRows();
    assert rows[2..][1..] == [];
    assert Select(preds, rows[2..]) == [rows[2]];
    assert Select(preds, rows[1..]) == [rows[2]];
  }

  /** Listing `{"name__contains": "a"}` over rows a, b, ab without paging
      returns the rows a and ab, in table order, with a total count of 2. */
  lemma ListContains()
    ensures var rows := [NamedRow(1, "a"), NamedRow(2, "b"), NamedRow(3, "ab")];
            var a := ListArgs(None, None, None, None, Some([("name__contains", VStr("a"))]));
            ListGet(rows, IdName, a) == Success(ListResponse(200, 2, [NamedRow(1, "a"), NamedRow(3, "ab")]))
  {
    var filters := [("name__contains", VStr("a"))];
    ContainsFilter(IdName);
    assert filters[0].0 != "self";
    assert GetQuery(filters, IdName) == Success([Contains("name", VStr("a"))]);
    ContainsSelect();
  }

  /** A filter object with a `self` key is rejected with TypeError, whatever
      else it holds. */
  lemma SelfFilterRejected(filters: seq<(string, Value)>, v: Value, columns: Columns)
    ensures var r := GetQuery(filters + [("self", v)], columns);
            r.Failure? && r.error.TypeError?
  {
    assert (filters + [("self", v)])[|filters|].0 == "self";
  }

  /** Creating `{"name": "x", "bogus": "y"}` on columns id and name inserts a
      row with only `name`, and answers 201. */
  lemma CreateDropsUnknownKeys(rows: seq<Row>)
    ensures var body := map["name" := VStr("x"), "bogus" := VStr("y")];
            Post(rows, IdName, Some(body)) == Success((201, rows + [map["name" := VStr("x")]]))
  {
    var body := map["name" := VStr("x"), "bogus" := VStr("y")];
    assert CreateArgs(body, IdName) == map["name" := VStr("x")];
  }

  /** A path id that is not an integer literal raises ValueError, whatever
      the table holds. */
  lemma MalformedIdRejected(t: Table)
    ensures var r := Get(t, Some("abc")); r.Failure? && r.error.ValueError?
  {
    assert Unsigned("abc") == "abc" && !IsDigit("abc"[0]);
  }

  /** `tags__any` is `v = ANY(tags)` on an ARRAY column and an AttributeError on
      a scalar one. */
  lemma AnyNeedsArray(v: Value)
    ensures KeyToPred("tags__any", v, map["tags" := Array]) == Success(Some(Any("tags", v)))
    ensures var r := KeyToPred("tags__any", v, map["tags" := Scalar]); r.Failure? && r.error.AttributeError?
  {
    assert PlainField("tags");
    assert "tags__any" == "tags" + "__" + "any";
    SuffixGrammar("tags", "any", v, map["tags" := Array]);
    SuffixGrammar("tags", "any", v, map["tags" := Scalar]);
  }

  /** `tags__any: null` is `NULL = ANY(tags)`, true for no row, even one whose
      array holds a NULL; `tags @> ARRAY[NULL]` likewise. */
  lemma NullArrayElementMatchesNothing(row: Row)
    ensures !Holds(Any("tags", VNone), row)
    ensures !Holds(ArrayContains("tags", VList([VNone])), row)
  {
    if "tags" in row && row["tags"].VList? {
      assert VNone in VList([VNone]).items;
    }
  }

  /** An integer LIKE operand is matched by its decimal text: `name__contains: 5`
      holds for a row named "a5b". */
  lemma IntegerContains()
    ensures Holds(Contains("name", VInt(5)), NamedRow(1, "a5b"))
  {
    assert ShowInt(5) == "5";
    assert OccursAt("5", "a5b", 1);
  }

  /** Getting id 999 from an empty table answers 404 with no body. */
  lemma GetFromEmpty()
    ensures Get(map[], Some("999")) == Success(Response(404, None))
  {
    GetIntCases(999, "id", Required);
    assert ShowInt(999) == "999";
  }
}

=== FILE: values.dfy ===
/** The values the adapter moves between HTTP and SQL: Python's naive `datetime`
    and normalised `timedelta`, the scalar/list values of a JSON document or a
    table row, and the exceptions the handlers can raise. */
module Values {
  import opened Wrappers

  /** The exceptions of the source, by Python class (message text is informative only). */
  datatype Error =
    | MissingArgument(name: string)   // tornado.web.MissingArgumentError
    | TypeError(what: string)
    | ValueError(what: string)
    | AttributeError(what: string)
    | OverflowError(what: string)
    | UnknownColumn(name: string)     // AttributeError from getattr(table.c, field)
    | DatabaseError(what: string)     // raised by the SQL engine while executing

  /** A naive datetime: the seven civil components, no tzinfo. */
  datatype DateTime = DateTime(year: int, month: int, day: int,
                               hour: int, minute: int, second: int, microsecond: int)

  predicate IsLeapYear(y: int)
  {
    y % 4 == 0 && (y % 100 != 0 || y % 400 == 0)
  }

  function DaysInMonth(y: int, m: int): (n: int)
    requires 1 <= m <= 12
    ensures 28 <= n <= 31
    ensures m == 2 ==> (n == 29 <==> IsLeapYear(y))
  {
    if m == 2 then (if IsLeapYear(y) then 29 else 28)
    else if m == 4 || m == 6 || m == 9 || m == 11 then 30
    else 31
  }

  /** The range checks Python's `datetime` constructor performs (MINYEAR = 1, MAXYEAR = 9999). */
  predicate ValidDateTime(d: DateTime)
  {
    && 1 <= d.year <= 9999
    && 1 <= d.month <= 12
    && 1 <= d.day <= DaysInMonth(d.year, d.month)
    && 0 <= d.hour < 24
    && 0 <= d.minute < 60
    && 0 <= d.second < 60
    && 0 <= d.microsecond < 1000000
  }

  const MicrosPerSecond: int := 1000000
  const SecondsPerDay: int := 86400
  const MicrosPerDay: int := 86400000000
  /** `timedelta.max.days`; a larger magnitude raises OverflowError. */
  const MaxDays: int := 999999999

  /** A duration in Python's normalised form. Its meaning is `Total()`, in microseconds. */
  datatype TimeDelta = TimeDelta(days: int, seconds: int, microseconds: int) {

    predicate Valid()
    {
      && -MaxDays <= days <= MaxDays
      && 0 <= seconds < SecondsPerDay
      && 0 <= microseconds < MicrosPerSecond
    }

    function Total(): int
    {
      days * MicrosPerDay + seconds * MicrosPerSecond + microseconds
    }
  }

  /** Total microseconds of `timedelta.min` and `timedelta.max`. */
  const MinTotal: int := -MaxDays * MicrosPerDay
  const MaxTotal: int := (MaxDays + 1) * MicrosPerDay - 1

  /** A Python value as it appears in a JSON document or a row: None, bool, int,
      str, list, datetime or timedelta. */
  datatype Value =
    | VNone
    | VBool(b: bool)
    | VInt(i: int)
    | VStr(s: string)
    | VList(items: seq<Value>)
    | VDateTime(dt: DateTime)
    | VTimeDelta(td: TimeDelta)

  /** A JSON object (a Python dict with string keys). */
  type Obj = map<string, Value>

  /** One fetched row: column name to value. */
  type Row = map<string, Value>

  lemma MulAtLeast(k: int, d: int)
    requires k >= 1 && d > 0
    ensures k * d >= d
  {
    assert k * d == (k - 1) * d + d;
  }

  /** Euclidean division by a positive divisor has exactly one quotient/remainder pair. */
  lemma DivModUnique(t: int, d: int, q: int, r: int)
    requires d > 0 && 0 <= r < d && t == q * d + r
    ensures t / d == q && t % d == r
  {
    var q', r' := t / d, t % d;
    assert q' * d + r' == q * d + r;
    if q' > q {
      assert (q' - q) * d == r - r';
      MulAtLeast(q' - q, d);
    } else if q' < q {
      assert (q - q') * d == r' - r;
      MulAtLeast(q - q', d);
    }
  }

  /** Python's normalisation of a duration given in microseconds: floor division
      into days, then seconds and microseconds; OverflowError outside the range. */
  function FromMicroseconds(t: int): (r: Result<TimeDelta, Error>)
    ensures r.Success? <==> MinTotal <= t <= MaxTotal
    ensures r.Success? ==> r.value.Valid() && r.value.Total() == t
    ensures r.Failure? ==> r.error.OverflowError?
  {
    var days := t / MicrosPerDay;
    var rem := t % MicrosPerDay;
    assert t == days * MicrosPerDay + rem;
    if -MaxDays <= days <= MaxDays then
      Success(TimeDelta(days, rem / MicrosPerSecond, rem % MicrosPerSecond))
    else
      Failure(OverflowError("days must have magnitude <= 999999999"))
  }

  /** A valid duration is its own normal form. */
  lemma {:induction false} NormalFormUnique(td: TimeDelta)
    requires td.Valid()
    ensures FromMicroseconds(td.Total()) == Success(td)
  {
    var rem := td.seconds * MicrosPerSecond + td.microseconds;
    DivModUnique(td.Total(), MicrosPerDay, td.days, rem);
    DivModUnique(rem, MicrosPerSecond, td.seconds, td.microseconds);
  }
}

=== FILE: wrappers.dfy ===
/** Failure-compatible wrappers used throughout the model: an optional value and
    a result that carries either a value or the exception the source would raise. */
module Wrappers {

  datatype Option<+T> = None | Some(value: T) {

    /** The wrapped value, or `default` when there is none. */
    function GetOr(default: T): T
    {
      match this
      case Some(v) => v
      case None => default
    }
  }

  datatype Result<+T, +E> = Success(value: T) | Failure(error: E) {

    predicate IsFailure()
    {
      Failure?
    }

    function PropagateFailure<U>(): Result<U, E>
      requires Failure?
    {
      Failure(error)
    }

    function Extract(): T
      requires Success?
    {
      value
    }
  }
}
